=== FILE: README.md ===
# A verified model of `switch.py`

`switch.py` is a small learning Ethernet switch with 802.1Q-style VLANs
and a simplified spanning tree protocol (STP). Every interface has one
entry in a port table:

- `T` is a trunk that forwards;
- `B` is a trunk that STP has blocked;
- any other text is the decimal id of an access VLAN.

The main loop receives one frame at a time and treats it in one of two ways:

- Its destination is the bridge group address `01:80:C2:00:00:00`. The frame
  is a BPDU (bridge protocol data unit). The switch decodes four big-endian
  16-bit fields from it: the claimed root id, the root path cost, the
  sender's bridge id and the sender's port. It then updates its root, cost,
  root port and trunk states.
- Any other frame is a data frame. The switch learns the source address and
  then forwards or floods the frame. Whether the frame counts as coming
  from a trunk depends on whether it carries a tag, not on the kind of the
  ingress port. An untagged frame gets a tag with marker `0x8200` and the
  12-bit id `int` of its ingress entry when it goes out on a trunk. A
  tagged frame loses its tag when it goes out on an access port whose
  entry is `str` of the tag's id.

A second thread sends BPDUs once per second on every forwarding trunk,
while the switch believes it is the root.

The model is pure. The switch's globals are gathered into one immutable
`Bridge` record. Each `send_to_link` call becomes a `Send` value that
records the length argument switch.py computes. Wherever the Python code
would raise, the result is `None`. The globals a raise leaves behind are
given separately (`Switch.LeftAtRaise`): only the relay in the BPDU
handler raises after writing them.

switch.py runs two threads: the receive loop of `main`, and the timer
thread started at lines 106-107. A raise ends only the thread that raised;
the other one carries on (`Switch.Threads`). The receive loop raises on an
index past the end of a short frame, on `struct.unpack` of a payload that
is not 8 octets, on `struct.pack` of a relayed value outside 0..65535, and
on `int` of a port entry that is not a numeral (`T`, `B`, …). The timer thread raises on `struct.pack` of an own id
outside 0..65535, or of a port index beyond 65535.

Modules, in dependency order:

| module | file | contents |
|---|---|---|
| `Options` | options.dfy | `Option`, whose `None` stands for a raise |
| `Bytes` | bytes.dfy | octets and the 16-bit big-endian encoding |
| `Decimal` | decimal.dfy | `str(n)` and `int(s)` for VLAN ids |
| `Frame` | frame.dfy | `parse_ethernet_header`, `create_vlan_tag`, tag insertion and removal |
| `Bpdu` | bpdu.dfy | BPDU payload and frame encoding and decoding |
| `Ports` | ports.dfy | the port table and the "every `T` entry" iteration |
| `State` | state.dfy | the switch state, the sends, the reachable-state invariant |
| `Stp` | stp.dfy | the BPDU handler and the periodic sender |
| `Forward` | forward.dfy | MAC learning and the forwarding rule table |
| `Switch` | switch.dfy | one receive-loop iteration, timer ticks, the live threads, runs of events |
| `Scenarios` | scenarios.dfy | concrete runs: an access flood, two orders of the three-bridge triangle, and raises that end one thread |

## Model

| member | source | states |
|---|---|---|
| Bytes.PackU16 | switch.py:43 | `struct.pack('!H', x)` succeeds exactly for 0 <= x < 65536, and its two octets read back big-endian as x |
| Bytes.PackOfBe16 | switch.py:43-47 | packing the big-endian value of two octets gives those two octets back |
| Decimal.Show | switch.py:185 | `str(vid)` is a canonical numeral (no sign, no leading zero), starting with '0' only for 0 |
| Decimal.ParseNat | switch.py:174 | `int(entry)` succeeds exactly on non-empty strings of ASCII digits |
| Decimal.ParseShow | switch.py:174-185 | `int(str(n)) == n` for every natural n |
| Decimal.ShowOfValue | switch.py:174-185 | `str(int(s)) == s` for every canonical numeral s |
| Decimal.ShowMatchesParse | switch.py:198 | for a canonical access entry s, `s == str(v)` holds exactly when `int(s) == v` |
| Frame.Parse | switch.py:17-33 | fails exactly on frames shorter than 14 octets, or tagged and shorter than 18; gives bytes 0-5 as destination and 6-11 as source; the VLAN id is present exactly when bytes 12-13 are 0x8200, and is then bytes 14-15 masked to 12 bits with the ethertype from bytes 16-17; otherwise the ethertype is bytes 12-13 |
| Frame.VlanTag | switch.py:35-38 | the tag is four octets: the marker 0x8200, then the id masked to 12 bits |
| Frame.InsertTag | switch.py:174 | the tagged frame is 4 octets longer: the 12 address octets, then the tag for `v`, then the rest of the frame unchanged |
| Frame.StripTag | switch.py:186-199 | the stripped frame is 4 octets shorter: the 12 address octets, then the frame from octet 16 on |
| Frame.StripInsert | switch.py:174-186 | removing the tag just inserted gives back the original frame |
| Frame.ParseInsert | switch.py:17-38 | a frame with an inserted tag parses with the original addresses, the original ethertype and the id masked to 12 bits |
| Frame.ParseUntagged | switch.py:24-33 | a frame without the marker parses as untagged, with ethertype from bytes 12-13 |
| Frame.ParseStrip | switch.py:186 | removing the tag of a tagged frame leaves an untagged frame with the same addresses and ethertype, unless the inner ethertype is the marker again |
| Frame.InsertStrip | switch.py:174-199 | re-inserting the parsed id after removing the tag restores the frame, when its priority bits are zero |
| Frame.RetagClearsPriority | switch.py:29-31 | for every tagged frame, re-inserting the parsed id after removing the tag gives the frame with only its four priority and drop-eligible bits cleared, so the parse pins the id of every tagged frame |
| Bpdu.Unpack | switch.py:46-47 | `struct.unpack('!HHHH', ...)` succeeds exactly on 8 octets and yields four 16-bit fields |
| Bpdu.Payload | switch.py:40-43 | `create_bdpu_data` succeeds exactly when all four fields fit 16 bits, and unpacking its result gives the fields back |
| Bpdu.PayloadOfUnpack | switch.py:40-47 | the other round trip: every 8-octet payload is the encoding of the fields it decodes to |
| Bpdu.BpduFrame | switch.py:49-50 | the BPDU frame is the group address, then the own address, then a payload that decodes to the fields sent; it fails exactly when a field does not fit 16 bits |
| Bpdu.BpduFrameParses | switch.py:49-50 | with a 6-octet own address the frame is 20 octets, parses with the group address as destination and the own address as source, and bytes 12.. decode to the fields sent |
| Ports.RoleOf | switch.py:85 | reading a table entry loses nothing: the role's text is the entry |
| Ports.TextInjective | switch.py:181-203 | comparing two well-formed entries as text is the same as comparing their roles |
| Ports.ForwardingPorts | switch.py:56-58 | the loop over `T` entries visits exactly the forwarding indices, each once, in ascending order |
| State.Initial | switch.py:96-98 | the state before the receive loop (own id as root, cost 0, no root port, nothing learned) satisfies the reachable-state invariant |
| Stp.BpduSends | switch.py:147-149 | one BPDU per listed port, with length argument 20, each frame encoding (root, cost, own id, that port); failure exactly when some field does not fit 16 bits |
| Stp.Announce | switch.py:147-149 | the relay goes to every forwarding port and only to them, in ascending order, each frame encoding that port; it cannot fail when root, cost and own id fit 16 bits and the table has at most 65536 ports |
| Stp.PeriodicSends | switch.py:52-59 | the timer thread sends nothing unless own id equals root id; if they are equal, it sends on every forwarding port and only there |
| Stp.Judge | switch.py:136-159 | the three STP cases keep the own id, the MAC table and the table's size; the root becomes the lower of the current root and the advertised one |
| Stp.JudgePorts | switch.py:136-159 | apart from the receiving port, only a bridge that was root and adopts a better root changes any entry, turning its other `T` entries to `B`; the receiving port opens only for a root at least as good as the current one, and closes only for the bridge's own BPDU come back with a worse root |
| Stp.BlockOthers | switch.py:141-144 | every `T` entry other than the receiving port's becomes `B`, every other entry stays, and each entry keeps its kind |
| Stp.UnblockAll | switch.py:162-165 | every `B` entry becomes `T`, every other entry stays; afterwards no entry is `B`, and each entry keeps its kind |
| Stp.JudgeKeeps | switch.py:136-159 | the three STP cases keep the own id, the MAC table and every port's kind; a better root is adopted through the receiving port at one link's cost more; otherwise root and root port stay and the cost only falls |
| Stp.BpduStep | switch.py:134-166 | the whole handler: it fails only on a better root; the root only decreases, and strictly exactly for a better root; only trunk entries change; a bridge that is root ends with no blocked port; nothing is sent unless the root improved |
| Stp.BetterRoot | switch.py:136-149 | case 1: the new root, cost and root port; a former root blocks its other forwarding trunks; a trunk receiving port ends forwarding; the relay covers exactly the forwarding ports with the new root and cost |
| Stp.AdoptedPorts | switch.py:136-146 | the port table after adopting a better root, entry by entry |
| Stp.BetterRootFails | switch.py:139-149 | when the advertised fields and the own id fit 16 bits and the table has at most 65536 ports, case 1 fails exactly when the cost plus 10 overflows 16 bits and some port forwards after the update |
| Stp.AnnounceFails | switch.py:147-149 | when the root and own id fit 16 bits and the table has at most 65536 ports, announcing fails exactly when the cost does not fit 16 bits and some port forwards |
| Stp.AdoptedForwarding | switch.py:141-148 | after adopting a better root some port forwards exactly when the receiving port is a trunk, or the bridge was not root and had another forwarding port |
| Stp.SameRoot | switch.py:150-156 | case 2, at a bridge that is not root: root and root port stay and nothing is sent; the cost falls only through the root port, and exactly when the advertised cost plus 10 is lower; only a blocked non-root receiving port can change, to forwarding, exactly when the neighbour's cost is higher |
| Stp.LoopBack | switch.py:157-159 | case 3, at a bridge that is not root: the bridge's own BPDU coming back with a worse root blocks a forwarding receiving port and changes nothing else |
| Stp.WorseRootIgnored | switch.py:136-159 | any other BPDU with a worse root leaves a non-root bridge unchanged and sends nothing |
| Stp.RootKeepsTrunksForwarding | switch.py:162-165 | a bridge that is and stays root ends with every trunk forwarding, whatever the BPDU |
| Stp.UnblockKeepsKinds | switch.py:162-165 | the re-assertion pass keeps every port's kind and leaves no blocked entry |
| Forward.Classify | switch.py:169-174 | a tagged frame is from a trunk with its tag's id; an untagged frame takes `int` of the ingress entry, which fails exactly when that entry is not a numeral |
| Forward.Decide | switch.py:181-203 | the four guarded sends as a table: unchanged trunk to forwarding trunk, or to the same access VLAN; stripped trunk to the access port named `str(vid)`; tagged access to forwarding trunk; a blocked port gets nothing |
| Forward.Emit | switch.py:174-190 | at most one send per egress port, exactly when the rule does not drop; the length argument equals the frame's length; an added tag is exactly `create_vlan_tag` of the ingress VLAN spliced after the addresses (priority bits zero), parses with that VLAN and strips back to the original |
| Forward.Flood | switch.py:192-203 | the flood sends only to other in-range ports, in ascending order, each what the rule table gives for that port |
| Forward.FloodCovers | switch.py:192-203 | the flood reaches every port other than the ingress port whose rule does not drop the frame |
| Forward.Learn | switch.py:177-178 | the source address is added if absent, and no existing entry moves |
| Forward.FirstSeenWins | switch.py:177-178 | learning is idempotent and the first port an address was seen on wins |
| Forward.ForwardStep | switch.py:169-203 | fails exactly for an untagged frame on a port whose entry is not a numeral; otherwise only the MAC table changes; every send goes to a non-blocked in-range port; a known destination gets at most one send, on its learned port; a flood never goes back to the ingress port |
| Forward.SendsFollowRules | switch.py:180-203 | every send of a forwarding step is what the rule table gives for its egress port |
| Forward.VlanIsolation | switch.py:180-203 | an access port gets a frame only untagged and only for its own VLAN; a trunk gets a frame only while forwarding, and an untagged frame arrives there tagged with the ingress VLAN |
| Forward.ForwardComplete | switch.py:180-203 | a known destination gets the frame exactly when its rule does not drop it; an unknown one means every other non-dropping port gets it |
| Forward.AccessVlanCarried | switch.py:169-199 | across two switches, an untagged frame from access port `s`, for a canonical numeral `s` below 4096, is tagged `int(s)`; the far side reads that VLAN back, delivers only to access ports whose entry is `s`, and removing the tag restores the frame |
| Forward.TagCarries | switch.py:174 | a tag inserted for an id below 4096 reads back as that id and strips back to the original frame |
| Forward.TrunkSelects | switch.py:198 | a frame tagged `int(s)` leaves through an access port exactly when that port's entry is the canonical numeral `s` |
| Switch.Receive | switch.py:114-203 | one loop iteration: a frame that does not parse fails; the own id stays, the root never increases, port kinds and learned addresses are kept; a BPDU leaves the MAC table alone; a data frame changes only the MAC table |
| Switch.ReceivePreservesInv | switch.py:134-178 | every iteration keeps the invariant: root <= own id; root == own id exactly when there is no root port; a root has cost 0; the root port and learned ports index the table |
| Switch.BpduPreservesInv | switch.py:134-166 | the BPDU handler keeps that invariant |
| Switch.RootNeverReturns | switch.py:136-139 | once a bridge has adopted another root it never becomes root again: the root id only decreases |
| Switch.LeftAtRaise | switch.py:134-149 | the state an iteration leaves when it raises keeps the invariant, the own id and learned addresses; it differs from the state before exactly for a BPDU with a better root, and then holds the adopted root with the receiving port as root port |
| Switch.Handle | switch.py:52-59 | one event, a received frame or one round of the timer thread, keeps the invariant, the own id, port kinds and learned addresses, and never raises the root; the timer only reads the state; a raise ends exactly the thread whose event raised, which then sends nothing; a timer raise changes nothing, and a receive raise leaves the state written before it (`LeftAtRaise`); the other thread keeps running; an event for an ended thread does nothing |
| Switch.RaiseAfterAdoption | switch.py:137-149 | for a BPDU with a better root, the iteration raises exactly when the relay from the adopted state cannot be packed |
| Switch.RelayRaiseSilencesTimer | switch.py:137-149 | when the relay of a better root raises, the receive loop ends with the adopted root already stored, so the bridge is no longer root and the next timer round sends nothing |
| Switch.Run | switch.py:105-116 | any run of events keeps the invariant, the own id, port kinds and learned addresses, and the root never increases; an ended thread never runs again, and once both have ended nothing changes and nothing is sent |
| Scenarios.AccessFloodScenario | switch.py:169-203 | a broadcast from access port 0 (VLAN 10) goes tagged with 10 to the trunk, unchanged to the other VLAN 10 port, not to the VLAN 20 port, and its source is learned on port 0 |
| Scenarios.TimerRaisesAlone | switch.py:43-58 | with priority 70000 and a forwarding trunk, the timer's first round raises and ends the timer thread only; a broadcast from access port 1 is still learned and sent tagged to the trunk |
| Scenarios.ReceiveRaisesAlone | switch.py:170-174 | an untagged frame on a trunk ends the receive loop through `int("T")` and leaves the timer thread running |
| Scenarios.TimerOutlivesReceiver | switch.py:52-58 | with the receive loop ended, a root bridge with one forwarding and one blocked trunk still sends its BPDU on the forwarding trunk |
| Scenarios.AdoptOn | switch.py:136-149 | a two-trunk root bridge hearing of a better root on one port adopts it at cost 10, blocks the other port and relays only on the new root port |
| Scenarios.AdoptThroughBlocked | switch.py:136-149 | a non-root bridge hearing of a better root on its blocked port unblocks it, makes it the root port and relays on both ports |
| Scenarios.NoBetterPath | switch.py:150-156 | a same-root BPDU that improves nothing leaves a non-root bridge unchanged |
| Scenarios.TriangleRootFirst | switch.py:134-166 | triangle A(10), B(20), C(30), A's BPDUs first: B and C adopt A through their A links and block both ends of the B-C link, and the later BPDUs change nothing |
| Scenarios.TriangleNeighbourFirst | switch.py:134-166 | triangle, B's BPDU reaches C first: C adopts B, then adopts A through its blocked port and unblocks it; only B's end of the B-C link stays blocked |

## Left out

- I/O and the wrapper: `recv_from_any_link`, `send_to_link`, `get_switch_mac` and `get_interface_name` are outside the model. A received frame is a parameter, each send is a `Send` value, and the own address is a parameter.
- The length argument that `recv_from_any_link` returns is taken to be the frame's length.
- The set of interfaces is taken to be the indices of the port table.
- Concurrency, `time.sleep` and the one-second period are left out. The events of the receive loop and of the timer thread are modelled as one sequence, each handled completely before the next (`Switch.Run`), so races between the two threads on the globals are not modelled. Which threads are still running is modelled.
- Start-up is left out. That covers reading `./configs/switch<id>.cfg`, the `int` of the priority line, and printing. `State.Initial` takes the priority and the table as parameters.
- All printing is left out. That includes turning a MAC address into its `aa:bb:...` text. Line 134 compares that text for the two addresses; formatting is injective, so the model compares the octets instead.
- Sends made before a raise within one loop iteration or one timer round are not recorded. For example, the relay BPDUs already sent when packing fails part-way through are lost, because the whole step is `None`.
- Decimal.ParseNat: models `int` on ASCII digit strings only. Python's `int` also accepts signs, surrounding whitespace, underscores and non-ASCII digits; the model treats such entries as not numeric.
- Decimal.ShowMatchesParse: stated only for canonical access entries. For a numeral with a leading zero, such as `"010"`, `int` gives 10 but no `str` result equals it, so tagged frames never reach such a port.
- Behaviour of the code a reader may not expect:
  - A frame shorter than 14 octets, or tagged and shorter than 18, makes `parse_ethernet_header` raise (switch.py:24, 31). That ends the receive loop; the model yields `None` for it and `Switch.Handle` ends the receive thread.
  - The root id never returns to the own id, because it only decreases (`Switch.RootNeverReturns`). The root re-assertion pass at switch.py:162-165 therefore runs only while a bridge has never adopted another root.
  - In the three-bridge triangle, the outcome depends on the order of BPDUs. When A's BPDUs arrive first, both ends of the B-C link stay blocked (`Scenarios.TriangleRootFirst`).
- Behaviour of the code that the model keeps as written:
  - A unicast to a learned address is sent even when the learned port is the ingress port.
  - A BPDU with a better root and an advertised cost of 65526 or more makes the relay's `struct.pack` raise when some port forwards after the update (`Stp.BetterRootFails`). The adopted root, cost, root port and table are stored before that raise and stay (`Switch.LeftAtRaise`).

=== FILE: bpdu.dfy ===
/** The switch's BPDU: a 20-octet frame made of the bridge group address,
    the sender's own hardware address, and four big-endian 16-bit fields. */
module Bpdu {
  import opened Options
  import opened Bytes
  import Frame

  /** 01:80:C2:00:00:00, the reserved bridge group address. */
  const GroupAddress: seq<Byte> := [0x01, 0x80, 0xC2, 0x00, 0x00, 0x00]
  /** The length argument every BPDU is sent with. */
  const FrameLength: int := 20

  /** Claimed root id, claimed root path cost, sender bridge id, sender port. */
  datatype Fields = Fields(root: int, cost: int, bridge: int, port: int)

  predicate Fits(f: Fields) {
    IsU16(f.root) && IsU16(f.cost) && IsU16(f.bridge) && IsU16(f.port)
  }

  /** `struct.unpack('!HHHH', data)`: fails unless exactly 8 octets. */
  function Unpack(data: seq<Byte>): (r: Option<Fields>)
    ensures r.Some? <==> |data| == 8
    ensures r.Some? ==> Fits(r.value)
  {
    if |data| != 8 then None
    else Some(Fields(Be16(data[0], data[1]), Be16(data[2], data[3]),
                     Be16(data[4], data[5]), Be16(data[6], data[7])))
  }

  /** The four `struct.pack('!H', _)` calls of `create_bdpu_data`, the first
      one out of range raising. */
  function Payload(f: Fields): (r: Option<seq<Byte>>)
    ensures r.Some? <==> Fits(f)
    ensures r.Some? ==> |r.value| == 8 && Unpack(r.value) == Some(f)
  {
    match (PackU16(f.root), PackU16(f.cost), PackU16(f.bridge), PackU16(f.port))
    case (Some(a), Some(b), Some(c), Some(d)) =>
      var p := a + b + c + d;
      assert p[0] == a[0] && p[1] == a[1] && p[2] == b[0] && p[3] == b[1];
      assert p[4] == c[0] && p[5] == c[1] && p[6] == d[0] && p[7] == d[1];
      Some(p)
    case _ => None
  }

  /** The other round trip: every 8-octet payload is the encoding of the
      fields it decodes to. */
  lemma PayloadOfUnpack(data: seq<Byte>)
    requires |data| == 8
    ensures Payload(Unpack(data).value) == Some(data)
  {
    PackOfBe16(data[0], data[1]);
    PackOfBe16(data[2], data[3]);
    PackOfBe16(data[4], data[5]);
    PackOfBe16(data[6], data[7]);
    assert data == [data[0], data[1]] + [data[2], data[3]] + [data[4], data[5]] + [data[6], data[7]];
  }

  /** `bpdu_mac + get_switch_mac() + create_bdpu_data(port)`. */
  function BpduFrame(mac: seq<Byte>, f: Fields): (r: Option<seq<Byte>>)
    ensures r.Some? <==> Fits(f)
    ensures r.Some? ==> |r.value| == |GroupAddress| + |mac| + 8
    ensures r.Some? ==> r.value[..6] == GroupAddress && r.value[6..6 + |mac|] == mac
    ensures r.Some? ==> Unpack(r.value[6 + |mac|..]) == Some(f)
  {
    match Payload(f)
    case None => None
    case Some(p) =>
      var fr := GroupAddress + mac + p;
      assert fr[6 + |mac|..] == p;
      Some(fr)
  }

  /** With a 6-octet own address the frame is 20 octets long, parses with
      the group address as destination and the own address as source, and
      its bytes from offset 12 decode to the fields sent. */
  lemma BpduFrameParses(mac: seq<Byte>, f: Fields)
    requires |mac| == 6 && Fits(f)
    ensures |BpduFrame(mac, f).value| == FrameLength
    ensures Frame.Parse(BpduFrame(mac, f).value).Some?
    ensures Frame.Parse(BpduFrame(mac, f).value).value.dest == GroupAddress
    ensures Frame.Parse(BpduFrame(mac, f).value).value.src == mac
    ensures Unpack(BpduFrame(mac, f).value[12..]) == Some(f)
  {
  }
}

=== FILE: bytes.dfy ===
/** Octets and the 16-bit big-endian field encoding
    (`struct.pack('!H', x)`) that every wire field of the switch uses. */
module Bytes {
  import opened Options

  /** One octet of a frame. */
  type Byte = b: int | 0 <= b < 256

  /** The range `struct.pack('!H', _)` accepts. */
  predicate IsU16(x: int) {
    0 <= x < 0x1_0000
  }

  /** The value of two octets read big-endian, `(hi << 8) + lo`. */
  function Be16(hi: Byte, lo: Byte): (v: int)
    ensures IsU16(v)
  {
    hi * 256 + lo
  }

  /** Two octets determine their big-endian value and vice versa. */
  lemma Be16Injective(a: Byte, b: Byte, c: Byte, d: Byte)
    ensures Be16(a, b) == Be16(c, d) <==> a == c && b == d
  {
  }

  /** `struct.pack('!H', x)`: two octets, or failure outside 0..65535. */
  function PackU16(x: int): (r: Option<seq<Byte>>)
    ensures r.Some? <==> IsU16(x)
    ensures r.Some? ==> |r.value| == 2 && Be16(r.value[0], r.value[1]) == x
  {
    if IsU16(x) then Some([x / 256, x % 256]) else None
  }

  /** Packing the value of two octets gives those octets back. */
  lemma PackOfBe16(hi: Byte, lo: Byte)
    ensures PackU16(Be16(hi, lo)) == Some([hi, lo])
  {
  }
}

=== FILE: decimal.dfy ===
/** Decimal text for VLAN ids. The port table stores access VLANs as text;
    the switch turns such text into a number with `int(_)` when it tags a
    frame and turns a tag's number into text with `str(_)` when it compares
    it with an access port's entry. */
module Decimal {
  import opened Options

  predicate IsDigit(c: char) {
    '0' <= c <= '9'
  }

  /** Text that `int(_)` accepts in this model: one or more ASCII digits. */
  predicate IsNumeral(s: string) {
    |s| > 0 && forall i :: 0 <= i < |s| ==> IsDigit(s[i])
  }

  /** Text that `str(_)` can produce: a numeral without leading zeros. */
  predicate IsCanonical(s: string) {
    IsNumeral(s) && (s[0] == '0' ==> |s| == 1)
  }

  function DigitChar(d: nat): (c: char)
    requires d < 10
    ensures IsDigit(c) && c as int - '0' as int == d
  {
    ('0' as int + d) as char
  }

  /** The number a string of digits denotes (0 for the empty string). */
  function Value(s: string): nat
    requires forall i :: 0 <= i < |s| ==> IsDigit(s[i])
    decreases |s|
  {
    if |s| == 0 then 0
    else
      assert IsDigit(s[|s| - 1]);
      Value(s[..|s| - 1]) * 10 + (s[|s| - 1] as int - '0' as int)
  }

  /** `str(n)` for a non-negative integer. */
  function Show(n: nat): (s: string)
    ensures IsCanonical(s)
    ensures s[0] == '0' <==> n == 0
    decreases n
  {
    if n < 10 then [DigitChar(n)] else Show(n / 10) + [DigitChar(n % 10)]
  }

  /** `int(s)`: the denoted number, or failure (ValueError) when `s` is not
      a numeral. */
  function ParseNat(s: string): (r: Option<nat>)
    ensures r.Some? <==> IsNumeral(s)
  {
    if IsNumeral(s) then Some(Value(s)) else None
  }

  /** `int(str(n)) == n`. */
  lemma {:induction false} ValueOfShow(n: nat)
    ensures Value(Show(n)) == n
    decreases n
  {
    if n >= 10 {
      var s := Show(n);
      assert s[..|s| - 1] == Show(n / 10);
      ValueOfShow(n / 10);
    }
  }

  lemma ParseShow(n: nat)
    ensures ParseNat(Show(n)) == Some(n)
  {
    ValueOfShow(n);
  }

  /** A numeral whose first digit is not zero denotes a positive number. */
  lemma {:induction false} LeadingDigitPositive(s: string)
    requires IsNumeral(s) && s[0] != '0'
    ensures Value(s) > 0
    decreases |s|
  {
    if |s| > 1 {
      var t := s[..|s| - 1];
      assert t[0] == s[0];
      LeadingDigitPositive(t);
    }
  }

  /** `str(int(s)) == s` exactly for the canonical numerals. */
  lemma {:induction false} ShowOfValue(s: string)
    requires IsCanonical(s)
    ensures Show(Value(s)) == s
    decreases |s|
  {
    if |s| > 1 {
      var t := s[..|s| - 1];
      assert t[0] == s[0];
      assert IsCanonical(t);
      LeadingDigitPositive(t);
      ShowOfValue(t);
      var d := s[|s| - 1] as int - '0' as int;
      assert Value(s) / 10 == Value(t) && Value(s) % 10 == d;
      assert s == t + [s[|s| - 1]];
    }
  }

  /** For a canonical access entry `s`, comparing `s` with `str(v)` is the
      same as comparing `int(s)` with `v`. */
  lemma ShowMatchesParse(s: string, v: nat)
    requires IsCanonical(s)
    ensures Show(v) == s <==> ParseNat(s) == Some(v)
  {
    ShowOfValue(s);
    ValueOfShow(v);
  }
}

=== FILE: forward.dfy ===
/** MAC learning and the forwarding decision for a data frame (any frame not
    addressed to the bridge group address). */
module Forward {
  import opened Options
  import opened Bytes
  import opened Decimal
  import opened Ports
  import opened Frame
  import opened State

  /** Where a data frame's VLAN comes from. A tagged frame counts as "from
      trunk" whatever the ingress port is; an untagged one takes the
      ingress entry's text (`name`) and its value `int(name)` (`vid`). */
  datatype Ingress = FromTrunk(vid: nat) | FromAccess(name: string, vid: nat)

  /** The `from_trunk` test and the `int(vlan_table[interface])` conversion;
      `None` where `int` raises, i.e. an untagged frame arriving on a port
      whose entry is not a numeral ("T", "B", or other text). */
  function Classify(h: Header, role: Role): (r: Option<Ingress>)
    ensures h.vlan.Some? ==> r == Some(FromTrunk(h.vlan.value))
    ensures h.vlan.None? ==> (r.Some? <==> role.Access? && IsNumeral(role.vlan))
    ensures r.Some? && r.value.FromAccess? ==>
      role == Access(r.value.name) && ParseNat(r.value.name) == Some(r.value.vid)
  {
    match h.vlan
    case Some(v) => Some(FromTrunk(v))
    case None =>
      match role
      case Access(s) =>
        (match ParseNat(s)
         case Some(n) => Some(FromAccess(s, n))
         case None => None)
      case _ => None
  }

  /** What one egress port receives. */
  datatype Action = Unchanged | Stripped | Tagged | Dropped

  /** The four guarded sends tried for one egress port. Exactly one of them
      can fire, so a port receives at most one frame. */
  function Decide(ing: Ingress, egress: Role): (a: Action)
    ensures egress == Blocked ==> a == Dropped
    ensures a == Unchanged <==>
      (ing.FromTrunk? && egress == Forwarding) || (ing.FromAccess? && egress == Access(ing.name))
    ensures a == Stripped <==> ing.FromTrunk? && egress == Access(Show(ing.vid))
    ensures a == Tagged <==> ing.FromAccess? && egress == Forwarding
  {
    match egress
    case Blocked => Dropped
    case Forwarding => if ing.FromTrunk? then Unchanged else Tagged
    case Access(s) =>
      match ing
      case FromTrunk(v) => if s == Show(v) then Stripped else Dropped
      case FromAccess(name, _) => if s == name then Unchanged else Dropped
  }

  /** Frames long enough for what `Decide` may ask of them: a tagged frame
      already parsed with its tag, an untagged one with its ethertype. */
  predicate Sendable(ing: Ingress, data: seq<Byte>) {
    |data| >= 14 && (ing.FromTrunk? ==> |data| >= 18)
  }

  /** The `send_to_link` call for egress port `q`, if any, with the length
      argument switch.py computes (`length`, `length - 4`, `length + 4`). */
  function Emit(ing: Ingress, q: nat, egress: Role, data: seq<Byte>): (r: seq<Send>)
    requires Sendable(ing, data)
    ensures |r| <= 1 && (|r| == 1 <==> Decide(ing, egress) != Dropped)
    ensures |r| == 1 ==> r[0].port == q && r[0].length == |r[0].frame|
    ensures |r| == 1 && Decide(ing, egress) == Unchanged ==> r[0].frame == data
    ensures |r| == 1 && Decide(ing, egress) == Stripped ==> r[0].frame == StripTag(data)
    ensures |r| == 1 && Decide(ing, egress) == Tagged ==>
      && r[0].frame == InsertTag(data, ing.vid)
      && |r[0].frame| == |data| + 4
      && StripTag(r[0].frame) == data
      && Parse(r[0].frame) == Some(Header(data[..6], data[6..AddrLen], Be16(data[12], data[13]), Some(ing.vid % VidRange)))
  {
    match Decide(ing, egress)
    case Unchanged => [Send(q, |data|, data)]
    case Stripped => [Send(q, |data| - 4, StripTag(data))]
    case Tagged =>
      StripInsert(data, ing.vid);
      ParseInsert(data, ing.vid);
      [Send(q, |data| + 4, InsertTag(data, ing.vid))]
    case Dropped => []
  }

  /** The flood loop over interfaces `from ..`, skipping the ingress port. */
  function Flood(ports: seq<Role>, p: nat, ing: Ingress, data: seq<Byte>, from: nat): (r: seq<Send>)
    requires from <= |ports| && Sendable(ing, data)
    ensures forall k :: 0 <= k < |r| ==> from <= r[k].port < |ports| && r[k].port != p
    ensures forall k :: 0 <= k < |r| ==> [r[k]] == Emit(ing, r[k].port, ports[r[k].port], data)
    ensures forall k, l :: 0 <= k < l < |r| ==> r[k].port < r[l].port
    decreases |ports| - from
  {
    if from == |ports| then []
    else
      var here := if from == p then [] else Emit(ing, from, ports[from], data);
      here + Flood(ports, p, ing, data, from + 1)
  }

  /** Some send of `sends` goes out of port `j`. */
  predicate SendsTo(sends: seq<Send>, j: nat) {
    exists k :: 0 <= k < |sends| && sends[k].port == j
  }

  lemma SendsToAppend(a: seq<Send>, b: seq<Send>, j: nat)
    requires SendsTo(a, j) || SendsTo(b, j)
    ensures SendsTo(a + b, j)
  {
    if SendsTo(a, j) {
      var k :| 0 <= k < |a| && a[k].port == j;
      assert (a + b)[k] == a[k];
    } else {
      var k :| 0 <= k < |b| && b[k].port == j;
      assert (a + b)[|a| + k] == b[k];
    }
  }

  /** The flood reaches every port other than the ingress port whose rule
      does not drop the frame. */
  lemma {:induction false} FloodCovers(ports: seq<Role>, p: nat, ing: Ingress, data: seq<Byte>, from: nat, j: nat)
    requires from <= j < |ports| && Sendable(ing, data)
    requires j != p && Decide(ing, ports[j]) != Dropped
    ensures SendsTo(Flood(ports, p, ing, data, from), j)
    decreases |ports| - from
  {
    var here := if from == p then [] else Emit(ing, from, ports[from], data);
    var rest := Flood(ports, p, ing, data, from + 1);
    assert Flood(ports, p, ing, data, from) == here + rest;
    if j == from {
      assert here[0].port == j;
    } else {
      FloodCovers(ports, p, ing, data, from + 1, j);
    }
    SendsToAppend(here, rest, j);
  }

  /** `if not src_mac in MAC_table: MAC_table[src_mac] = interface`. */
  function Learn(macs: map<seq<Byte>, nat>, src: seq<Byte>, p: nat): (r: map<seq<Byte>, nat>)
    ensures r.Keys == macs.Keys + {src}
    ensures forall a :: a in macs ==> r[a] == macs[a]
    ensures src !in macs ==> r[src] == p
  {
    if src in macs then macs else macs[src := p]
  }

  /** First seen wins: a later sighting on another port does not move an
      address, and learning is idempotent. */
  lemma FirstSeenWins(macs: map<seq<Byte>, nat>, a: seq<Byte>, p1: nat, p2: nat)
    ensures Learn(Learn(macs, a, p1), a, p2) == Learn(macs, a, p1)
    ensures Learn(Learn(macs, a, p1), a, p2)[a] == if a in macs then macs[a] else p1
  {
  }

  /** The learn-and-forward half of the receive loop for a parsed data frame
      `data` (header `h`) received on port `p`. Learning happens first, so a
      frame whose destination is its own source goes back out on `p`. */
  function ForwardStep(b: Bridge, p: nat, h: Header, data: seq<Byte>): (r: Option<Step>)
    requires p < |b.ports| && MacsInRange(b) && Parse(data) == Some(h)
    ensures r.None? <==> h.vlan.None? && !(b.ports[p].Access? && IsNumeral(b.ports[p].vlan))
    ensures r.Some? ==> r.value.bridge == b.(macs := Learn(b.macs, h.src, p))
    ensures r.Some? ==> forall k :: 0 <= k < |r.value.sends| ==>
      var s := r.value.sends[k];
      s.port < |b.ports| && b.ports[s.port] != Blocked && s.length == |s.frame|
    ensures r.Some? && h.dest in r.value.bridge.macs ==>
      && |r.value.sends| <= 1
      && forall k :: 0 <= k < |r.value.sends| ==> r.value.sends[k].port == r.value.bridge.macs[h.dest]
    ensures r.Some? && h.dest !in r.value.bridge.macs ==>
      && (forall k :: 0 <= k < |r.value.sends| ==> r.value.sends[k].port != p)
      && (forall k, l :: 0 <= k < l < |r.value.sends| ==> r.value.sends[k].port < r.value.sends[l].port)
  {
    match Classify(h, b.ports[p])
    case None => None
    case Some(ing) =>
      var macs := Learn(b.macs, h.src, p);
      var sends :=
        if h.dest in macs then Emit(ing, macs[h.dest], b.ports[macs[h.dest]], data)
        else Flood(b.ports, p, ing, data, 0);
      Some(Step(b.(macs := macs), sends))
  }

  /** Every send of a forwarding step is what the rule table gives for its
      egress port. */
  lemma SendsFollowRules(b: Bridge, p: nat, h: Header, data: seq<Byte>, ing: Ingress)
    requires p < |b.ports| && MacsInRange(b) && Parse(data) == Some(h)
    requires Classify(h, b.ports[p]) == Some(ing)
    ensures Sendable(ing, data)
    ensures ForwardStep(b, p, h, data).Some?
    ensures var sends := ForwardStep(b, p, h, data).value.sends;
      forall k :: 0 <= k < |sends| ==>
        sends[k].port < |b.ports| && [sends[k]] == Emit(ing, sends[k].port, b.ports[sends[k].port], data)
  {
  }

  /** VLAN isolation: a data frame reaches an access port only untagged and
      only when that port's entry names the frame's VLAN — the ingress entry
      for an untagged frame, the text of the tag's id for a tagged one — and
      reaches a trunk port only if it is forwarding, tagged with the
      ingress access VLAN when it arrived untagged. */
  lemma VlanIsolation(b: Bridge, p: nat, h: Header, data: seq<Byte>)
    requires p < |b.ports| && MacsInRange(b) && Parse(data) == Some(h)
    requires ForwardStep(b, p, h, data).Some?
    ensures var sends := ForwardStep(b, p, h, data).value.sends;
      forall k :: 0 <= k < |sends| ==>
        var q := sends[k].port;
        && q < |b.ports|
        && (b.ports[q].Access? && h.vlan.Some? ==>
              b.ports[q].vlan == Show(h.vlan.value) && sends[k].frame == StripTag(data))
        && (b.ports[q].Access? && h.vlan.None? ==>
              b.ports[q] == b.ports[p] && sends[k].frame == data)
        && (b.ports[q].IsTrunk() ==> b.ports[q] == Forwarding)
        && (b.ports[q].IsTrunk() && h.vlan.Some? ==> sends[k].frame == data)
        && (b.ports[q].IsTrunk() && h.vlan.None? ==>
              && StripTag(sends[k].frame) == data
              && Parse(sends[k].frame).value.vlan == Some(ParseNat(b.ports[p].vlan).value % VidRange))
  {
    var ing := Classify(h, b.ports[p]).value;
    SendsFollowRules(b, p, h, data, ing);
  }

  /** A frame to a known destination goes to the learned port exactly when
      that port's rule does not drop it; to an unknown destination it goes
      to every other port whose rule does not drop it. */
  lemma ForwardComplete(b: Bridge, p: nat, h: Header, data: seq<Byte>)
    requires p < |b.ports| && MacsInRange(b) && Parse(data) == Some(h)
    requires Classify(h, b.ports[p]).Some?
    ensures var ing := Classify(h, b.ports[p]).value;
      var r := ForwardStep(b, p, h, data).value;
      && (h.dest in r.bridge.macs ==>
            var q := r.bridge.macs[h.dest];
            q < |b.ports| && (|r.sends| == 1 <==> Decide(ing, b.ports[q]) != Dropped))
      && (h.dest !in r.bridge.macs ==>
            forall j :: 0 <= j < |b.ports| && j != p && Decide(ing, b.ports[j]) != Dropped ==>
              SendsTo(r.sends, j))
  {
    var ing := Classify(h, b.ports[p]).value;
    var r := ForwardStep(b, p, h, data).value;
    if h.dest !in r.bridge.macs {
      forall j | 0 <= j < |b.ports| && j != p && Decide(ing, b.ports[j]) != Dropped
        ensures SendsTo(r.sends, j)
      {
        FloodCovers(b.ports, p, ing, data, 0, j);
      }
    }
  }

  /** Across two switches: an untagged frame entering access port `s` (a
      canonical numeral below 4096) is tagged with `int(s)`; at the far
      switch the tag is read back as that VLAN, selects exactly the access
      ports whose entry is `s`, and stripping it restores the frame. */
  lemma AccessVlanCarried(s: string, f: seq<Byte>, far: Role)
    requires IsCanonical(s) && Value(s) < VidRange && |f| >= 14 && !IsTagged(f)
    ensures Classify(Parse(f).value, Access(s)) == Some(FromAccess(s, Value(s)))
    ensures Parse(InsertTag(f, Value(s))).Some?
    ensures Parse(InsertTag(f, Value(s))).value.vlan == Some(Value(s))
    ensures far.Access? ==> (Decide(FromTrunk(Value(s)), far) == Stripped <==> far == Access(s))
    ensures StripTag(InsertTag(f, Value(s))) == f
  {
    AccessIngress(s, f);
    TagCarries(f, Value(s));
    TrunkSelects(s, far);
  }

  /** An untagged frame on access port `s` comes from VLAN `int(s)`. */
  lemma AccessIngress(s: string, f: seq<Byte>)
    requires IsNumeral(s) && |f| >= 14 && !IsTagged(f)
    ensures Classify(Parse(f).value, Access(s)) == Some(FromAccess(s, Value(s)))
  {
    assert Parse(f).value.vlan.None?;
  }

  /** A tag inserted for an id below 4096 is read back as that id, and
      stripping it restores the frame. */
  lemma TagCarries(f: seq<Byte>, v: nat)
    requires |f| >= 14 && v < VidRange
    ensures Parse(InsertTag(f, v)).Some? && Parse(InsertTag(f, v)).value.vlan == Some(v)
    ensures StripTag(InsertTag(f, v)) == f
  {
    ParseInsert(f, v);
    assert v % VidRange == v;
    StripInsert(f, v);
  }

  /** A frame tagged `int(s)` leaves through an access port exactly when
      that port's entry is the canonical numeral `s`. */
  lemma TrunkSelects(s: string, far: Role)
    requires IsCanonical(s)
    ensures far.Access? ==> (Decide(FromTrunk(Value(s)), far) == Stripped <==> far == Access(s))
  {
    ShowOfValue(s);
  }
}

=== FILE: frame.dfy ===
/** Ethernet header parsing and single-tag insertion/removal. The tag has
    the IEEE 802.1Q tagged-frame layout (a 16-bit marker followed by a
    16-bit tag control field whose low 12 bits are the VLAN id), but this
    switch uses the marker 0x8200 where the standard uses 0x8100. */
module Frame {
  import opened Options
  import opened Bytes

  /** The tag marker this switch writes and recognises. */
  const TagMarker: int := 0x8200
  /** Number of distinct VLAN ids (`vlan_id & 0x0FFF`). */
  const VidRange: int := 0x1000
  /** Destination plus source address: the tag goes right after them. */
  const AddrLen: nat := 12

  /** `vlan` is `None` for an untagged frame (`-1` in switch.py). */
  datatype Header = Header(dest: seq<Byte>, src: seq<Byte>, etherType: int, vlan: Option<nat>)

  predicate IsTagged(data: seq<Byte>)
    requires |data| >= 14
  {
    Be16(data[12], data[13]) == TagMarker
  }

  /** `parse_ethernet_header`; `None` where switch.py indexes past the end
      of the frame (IndexError). */
  function Parse(data: seq<Byte>): (r: Option<Header>)
    ensures r.None? <==> |data| < 14 || (IsTagged(data) && |data| < 18)
    ensures r.Some? ==> r.value.dest == data[..6] && r.value.src == data[6..AddrLen]
    ensures r.Some? ==> IsU16(r.value.etherType)
    ensures r.Some? ==> (r.value.vlan.Some? <==> IsTagged(data))
    ensures r.Some? && r.value.vlan.Some? ==> r.value.vlan.value < VidRange
    ensures r.Some? && IsTagged(data) ==>
      r.value.vlan == Some(Be16(data[14], data[15]) % VidRange) && r.value.etherType == Be16(data[16], data[17])
    ensures r.Some? && !IsTagged(data) ==> r.value.etherType == Be16(data[12], data[13])
  {
    if |data| < 14 then None
    else if IsTagged(data) then
      if |data| < 18 then None
      else Some(Header(data[..6], data[6..AddrLen], Be16(data[16], data[17]),
                       Some(Be16(data[14], data[15]) % VidRange)))
    else Some(Header(data[..6], data[6..AddrLen], Be16(data[12], data[13]), None))
  }

  /** `create_vlan_tag`: marker, then the id masked to 12 bits. Python's
      `v & 0x0FFF` equals the Euclidean `v % 4096`, also for negative `v`. */
  function VlanTag(v: int): (t: seq<Byte>)
    ensures |t| == 4
    ensures Be16(t[0], t[1]) == TagMarker
    ensures Be16(t[2], t[3]) == v % VidRange
  {
    var id := v % VidRange;
    [0x82, 0x00, id / 256, id % 256]
  }

  /** `data[0:12] + create_vlan_tag(v) + data[12:]`. */
  function InsertTag(data: seq<Byte>, v: int): (r: seq<Byte>)
    requires |data| >= AddrLen
    ensures |r| == |data| + 4
    ensures r[..AddrLen] == data[..AddrLen] && r[AddrLen..16] == VlanTag(v) && r[16..] == data[AddrLen..]
  {
    data[..AddrLen] + VlanTag(v) + data[AddrLen..]
  }

  /** `data[:12] + data[16:]`. */
  function StripTag(data: seq<Byte>): (r: seq<Byte>)
    requires |data| >= 16
    ensures |r| == |data| - 4
    ensures r[..AddrLen] == data[..AddrLen] && r[AddrLen..] == data[16..]
  {
    data[..AddrLen] + data[16..]
  }

  /** Removing the tag just inserted gives back the original frame. */
  lemma StripInsert(f: seq<Byte>, v: int)
    requires |f| >= AddrLen
    ensures StripTag(InsertTag(f, v)) == f
  {
    var t := InsertTag(f, v);
    assert t[..AddrLen] == f[..AddrLen];
    assert t[16..] == f[AddrLen..];
    assert f == f[..AddrLen] + f[AddrLen..];
  }

  /** Parsing a frame with an inserted tag recovers the addresses, the
      original ethertype and the masked VLAN id. */
  lemma ParseInsert(f: seq<Byte>, v: int)
    requires |f| >= 14
    ensures Parse(InsertTag(f, v)) == Some(Header(f[..6], f[6..AddrLen], Be16(f[12], f[13]), Some(v % VidRange)))
  {
    var t := InsertTag(f, v);
    var tag := VlanTag(v);
    assert t[12] == tag[0] && t[13] == tag[1] && t[14] == tag[2] && t[15] == tag[3];
    assert t[16] == f[12] && t[17] == f[13];
    assert t[..6] == f[..6] && t[6..AddrLen] == f[6..AddrLen];
    var id := v % VidRange;
    assert Be16(t[14], t[15]) == id;
    assert 0 <= id < VidRange;
    assert id % VidRange == id;
  }

  /** A frame whose bytes 12-13 are not the marker parses as untagged, with
      the ethertype read from those bytes. */
  lemma ParseUntagged(f: seq<Byte>)
    requires |f| >= 14 && !IsTagged(f)
    ensures Parse(f) == Some(Header(f[..6], f[6..AddrLen], Be16(f[12], f[13]), None))
  {
  }

  /** Stripping a tagged frame gives an untagged frame with the same
      addresses and ethertype, unless the inner ethertype is itself the
      marker (a doubly tagged frame), which parses as tagged again. */
  lemma ParseStrip(f: seq<Byte>, h: Header)
    requires Parse(f) == Some(h) && h.vlan.Some?
    ensures h.etherType != TagMarker ==> Parse(StripTag(f)) == Some(h.(vlan := None))
    ensures h.etherType == TagMarker ==> Parse(StripTag(f)).None? || Parse(StripTag(f)).value.vlan.Some?
  {
    var s := StripTag(f);
    assert s[12] == f[16] && s[13] == f[17];
    assert s[..6] == f[..6] && s[6..AddrLen] == f[6..AddrLen];
  }

  /** Re-inserting the parsed VLAN id restores a tagged frame whose four
      priority and drop-eligible bits (the top of byte 14) are zero. */
  lemma InsertStrip(f: seq<Byte>, h: Header)
    requires Parse(f) == Some(h) && h.vlan.Some? && f[14] < 16
    ensures InsertTag(StripTag(f), h.vlan.value) == f
  {
    var s := StripTag(f);
    RetagBytes(f);
    assert h.vlan.value == Be16(f[14], f[15]) % VidRange;
    assert Be16(f[14], f[15]) < VidRange;
    assert s[..AddrLen] == f[..AddrLen] && s[AddrLen..] == f[16..];
    assert f == f[..AddrLen] + f[AddrLen..16] + f[16..];
  }

  /** Re-inserting the parsed VLAN id restores every tagged frame, except
      that the four priority and drop-eligible bits (the top of byte 14)
      come back zero: the parse keeps only the 12-bit id. */
  lemma RetagClearsPriority(f: seq<Byte>, h: Header)
    requires Parse(f) == Some(h) && h.vlan.Some?
    ensures InsertTag(StripTag(f), h.vlan.value) == f[14 := f[14] % 16]
  {
    var g := f[14 := f[14] % 16];
    ClearHighNibble(f[14], f[15]);
    assert g[..6] == f[..6] && g[6..AddrLen] == f[6..AddrLen] && g[16..] == f[16..];
    assert Parse(g) == Some(h);
    assert StripTag(g) == StripTag(f);
    InsertStrip(g, h);
  }

  /** Clearing the top four bits of the high octet leaves the 12-bit id. */
  lemma ClearHighNibble(hi: Byte, lo: Byte)
    ensures Be16(hi % 16, lo) % VidRange == Be16(hi, lo) % VidRange
  {
    var top: int := hi / 16;
    var low: int := hi % 16;
    assert hi * 256 + lo == (low * 256 + lo) + top * VidRange;
  }

  /** The tag of a tagged frame whose top four bits of byte 14 are zero is
      exactly what `VlanTag` builds for its id. */
  lemma RetagBytes(f: seq<Byte>)
    requires |f| >= 16 && IsTagged(f) && f[14] < 16
    ensures VlanTag(Be16(f[14], f[15]) % VidRange) == f[AddrLen..16]
  {
    var id := Be16(f[14], f[15]);
    assert id < VidRange;
    assert id % VidRange == id;
    var tag := VlanTag(id);
    Be16Injective(tag[0], tag[1], f[12], f[13]);
    Be16Injective(tag[2], tag[3], f[14], f[15]);
  }
}

=== FILE: options.dfy ===
/** A value that may be absent. */
module Options {

  /** In this model `None` also stands for a Python exception, which ends
      the thread of `switch.py` that raised it. */
  datatype Option<+T> = None | Some(value: T)
}

=== FILE: ports.dfy ===
/** The port table (`vlan_table`): one entry per interface, stored by
    switch.py as text — "T" for a forwarding trunk, "B" for a blocked trunk,
    anything else the access VLAN's decimal text. */
module Ports {

  datatype Role = Forwarding | Blocked | Access(vlan: string) {
    predicate IsTrunk() {
      Forwarding? || Blocked?
    }
  }

  /** The text a role is stored as. */
  function Text(r: Role): string {
    match r
    case Forwarding => "T"
    case Blocked => "B"
    case Access(s) => s
  }

  /** An access entry's text cannot be confused with a trunk marker. */
  predicate WellFormed(r: Role) {
    r.Access? ==> r.vlan != "T" && r.vlan != "B"
  }

  predicate AllWellFormed(ports: seq<Role>) {
    forall i :: 0 <= i < |ports| ==> WellFormed(ports[i])
  }

  /** Reading a table entry: the role is a lossless view of the text. */
  function RoleOf(text: string): (r: Role)
    ensures WellFormed(r) && Text(r) == text
  {
    if text == "T" then Forwarding else if text == "B" then Blocked else Access(text)
  }

  /** Two well-formed roles are equal exactly when their texts are, so the
      string comparisons of entries in switch.py are role comparisons. */
  lemma TextInjective(r: Role, s: Role)
    requires WellFormed(r) && WellFormed(s)
    ensures Text(r) == Text(s) <==> r == s
  {
  }

  /** The indices `i >= from` whose entry is "T", ascending: the ports
      switch.py's `for index, port in enumerate(vlan_table): if port == 'T'`
      loops visit. */
  function ForwardingPorts(ports: seq<Role>, from: nat): (r: seq<nat>)
    requires from <= |ports|
    ensures forall k :: 0 <= k < |r| ==> from <= r[k] < |ports| && ports[r[k]] == Forwarding
    ensures forall j :: from <= j < |ports| && ports[j] == Forwarding ==> j in r
    ensures forall k, l :: 0 <= k < l < |r| ==> r[k] < r[l]
    decreases |ports| - from
  {
    if from == |ports| then []
    else if ports[from] == Forwarding then [from] + ForwardingPorts(ports, from + 1)
    else ForwardingPorts(ports, from + 1)
  }
}

=== FILE: scenarios.dfy ===
/** Concrete runs of the model on small configurations. */
module Scenarios {
  import opened Options
  import opened Bytes
  import opened Ports
  import opened Frame
  import opened Bpdu
  import opened State
  import opened Stp
  import opened Forward
  import opened Switch

  const OwnMac: seq<Byte> := [0x02, 0, 0, 0, 0, 0x01]
  const Broadcast: seq<Byte> := [0xff, 0xff, 0xff, 0xff, 0xff, 0xff]
  const HostOne: seq<Byte> := [0x02, 0, 0, 0, 0, 0x11]

  /** An untagged IPv4 frame from `HostOne` to everyone, header only. */
  const Hello: seq<Byte> := Broadcast + HostOne + [0x08, 0x00]

  /** A host on access port 0 (VLAN 10) floods: the frame goes tagged to the
      trunk on port 2 and unchanged to port 3 (VLAN 10), never to port 1
      (VLAN 20), and its source is learned on port 0. */
  lemma AccessFloodScenario()
    ensures var b := Initial(1, [Access("10"), Access("20"), Forwarding, Access("10")]);
      var r := Receive(b, OwnMac, 0, Hello);
      && r.Some?
      && r.value.bridge.macs == map[HostOne := 0]
      && |r.value.sends| == 2
      && r.value.sends[0].port == 2 && r.value.sends[0].length == 18
      && r.value.sends[0].frame == InsertTag(Hello, 10)
      && r.value.sends[1] == Send(3, 14, Hello)
  {
    var ports := [Access("10"), Access("20"), Forwarding, Access("10")];
    var b := Initial(1, ports);
    var h := Parse(Hello).value;
    var ing := FromAccess("10", 10);
    assert h.dest == Broadcast && h.dest != GroupAddress && h.src == HostOne by { HelloParses(); }
    assert Classify(h, ports[0]) == Some(ing) by {
      HelloParses();
      assert Decimal.Value("10") == 10;
    }
    assert Flood(ports, 0, ing, Hello, 0) == [Send(2, 18, InsertTag(Hello, 10)), Send(3, 14, Hello)] by {
      FloodHello(ports, ing);
    }
  }

  /** A priority beyond 16 bits on a bridge with a forwarding trunk: the
      timer thread's first round raises in `struct.pack` and ends that
      thread alone. The receive loop carries on: `Hello` from access port 1
      is still learned and sent tagged onto the trunk. */
  lemma TimerRaisesAlone(b: Bridge)
    requires b == Initial(70000, [Forwarding, Access("10")])
    ensures Handle(b, OwnMac, Tick, Threads(true, true)) == Outcome(b, [], Threads(true, false))
    ensures var r := Handle(b, OwnMac, Frame(1, Hello), Threads(true, false));
      && r.threads == Threads(true, false)
      && r.bridge.macs == map[HostOne := 1]
      && r.sends == [Send(0, 18, InsertTag(Hello, 10))]
  {
    assert Handle(b, OwnMac, Tick, Threads(true, true)) == Outcome(b, [], Threads(true, false)) by {
      WidePriorityRaises(b);
    }
    var step := Receive(b, OwnMac, 1, Hello);
    assert step.Some? && step.value.bridge.macs == map[HostOne := 1]
      && step.value.sends == [Send(0, 18, InsertTag(Hello, 10))] by {
      HelloOnTrunkSide(b);
    }
  }

  /** The other way round: an untagged frame on a trunk makes the receive
      loop raise in `int("T")` and ends that loop alone ... */
  lemma ReceiveRaisesAlone(b: Bridge)
    requires b == Initial(5, [Forwarding, Blocked])
    ensures Handle(b, OwnMac, Frame(0, Hello), Threads(true, true)) == Outcome(b, [], Threads(false, true))
  {
    HelloParses();
  }

  /** ... and the timer thread of a root bridge like that one goes on
      sending BPDUs on its forwarding trunk. */
  lemma TimerOutlivesReceiver(b: Bridge)
    requires Inv(b) && b.own == b.root && IsU16(b.own)
    requires |b.ports| == 2 && b.ports[0] == Forwarding && b.ports[1] == Blocked
    ensures var r := Handle(b, OwnMac, Tick, Threads(false, true));
      && r.threads == Threads(false, true)
      && PortsOf(r.sends) == [0]
      && BpduFrame(OwnMac, Fields(b.root, b.cost, b.own, 0)) == Some(r.sends[0].frame)
  {
    OnlyFirstForwards(b.ports);
    RelayOnOne(b, OwnMac, 0);
    var r := Handle(b, OwnMac, Tick, Threads(false, true));
    assert r.sends == Announce(b, OwnMac).value;
    assert PortsOf(r.sends)[0] == r.sends[0].port;
  }

  /** In the table `[T, B]` only port 0 forwards. */
  lemma OnlyFirstForwards(ports: seq<Role>)
    requires |ports| == 2 && ports[0] == Forwarding && ports[1] == Blocked
    ensures forall i :: 0 <= i < |ports| ==> (ports[i] == Forwarding <==> i == 0)
  {
  }

  /** The timer's round cannot pack an own id beyond 16 bits once some
      port forwards. */
  lemma WidePriorityRaises(b: Bridge)
    requires b == Initial(70000, [Forwarding, Access("10")])
    ensures PeriodicSends(b, OwnMac).None?
  {
  }

  /** `Hello` on access port 1 (VLAN 10) of a bridge whose only other port
      is a trunk: learned on port 1, sent tagged to port 0. */
  lemma HelloOnTrunkSide(b: Bridge)
    requires b == Initial(70000, [Forwarding, Access("10")])
    ensures var r := Receive(b, OwnMac, 1, Hello);
      && r.Some?
      && r.value.bridge.macs == map[HostOne := 1]
      && r.value.sends == [Send(0, 18, InsertTag(Hello, 10))]
  {
    var ports := b.ports;
    var h := Parse(Hello).value;
    var ing := FromAccess("10", 10);
    assert h.dest == Broadcast && h.dest != GroupAddress && h.src == HostOne by { HelloParses(); }
    assert Classify(h, ports[1]) == Some(ing) by {
      HelloParses();
      assert Decimal.Value("10") == 10;
    }
    assert Flood(ports, 1, ing, Hello, 0) == [Send(0, 18, InsertTag(Hello, 10))] by {
      assert Flood(ports, 1, ing, Hello, 2) == [];
      assert Flood(ports, 1, ing, Hello, 1) == [];
    }
  }

  /** `Hello` parses as an untagged frame from `HostOne` to everyone. */
  lemma HelloParses()
    ensures Parse(Hello) == Some(Header(Broadcast, HostOne, 0x0800, None))
  {
    assert Hello[..6] == Broadcast && Hello[6..AddrLen] == HostOne;
    assert !IsTagged(Hello);
  }

  /** Flooding `Hello` from access port 0 of that table. */
  lemma FloodHello(ports: seq<Role>, ing: Ingress)
    requires ports == [Access("10"), Access("20"), Forwarding, Access("10")]
    requires ing == FromAccess("10", 10)
    ensures Flood(ports, 0, ing, Hello, 0) == [Send(2, 18, InsertTag(Hello, 10)), Send(3, 14, Hello)]
  {
    assert Decide(ing, ports[1]) == Dropped;
    assert Flood(ports, 0, ing, Hello, 4) == [];
    assert Flood(ports, 0, ing, Hello, 3) == [Send(3, 14, Hello)];
    assert Flood(ports, 0, ing, Hello, 2) == [Send(2, 18, InsertTag(Hello, 10)), Send(3, 14, Hello)];
    assert Flood(ports, 0, ing, Hello, 1) == Flood(ports, 0, ing, Hello, 2);
  }

  /** A bridge with the given port table and nothing learned. */
  function Unlearned(own: int, root: int, cost: int, rootPort: Option<nat>, ports: seq<Role>): Bridge {
    Bridge(own, root, cost, rootPort, ports, map[])
  }

  /** The ports a list of sends goes out of, in order. */
  function PortsOf(sends: seq<Send>): seq<nat> {
    seq(|sends|, k requires 0 <= k < |sends| => sends[k].port)
  }

  /** Handling BPDU `f` on port `p` takes bridge `b` to `n` and relays on
      exactly the ports `out`. */
  predicate StepsTo(b: Bridge, p: nat, f: Fields, n: Bridge, out: seq<nat>)
    requires p < |b.ports|
  {
    var r := BpduStep(b, OwnMac, p, f);
    r.Some? && r.value.bridge == n && PortsOf(r.value.sends) == out
  }

  const Fwd2: seq<Role> := [Forwarding, Forwarding]

  /** The two-trunk table with only port `q` forwarding. */
  function OneOpen(q: nat): seq<Role> {
    if q == 0 then [Forwarding, Blocked] else [Blocked, Forwarding]
  }

  /** A bridge that is root hears of a better root on port `q`: it adopts
      it at cost 10, blocks the other port and relays on `q` only. */
  lemma AdoptOn(own: int, f: Fields, q: nat)
    requires Fits(f) && f.root < own && IsU16(own) && f.cost == 0 && q < 2
    ensures StepsTo(Unlearned(own, own, 0, None, Fwd2), q, f,
                    Unlearned(own, f.root, 10, Some(q), OneOpen(q)), [q])
  {
    var b := Unlearned(own, own, 0, None, Fwd2);
    var n := Unlearned(own, f.root, 10, Some(q), OneOpen(q));
    RootAdopts(own, f, q);
    RelayOnOne(n, OwnMac, q);
    AdoptionStep(b, q, f);
  }

  /** The case analysis for that BPDU: port `q` becomes the root port and
      the other port is blocked. */
  lemma RootAdopts(own: int, f: Fields, q: nat)
    requires f.root < own && f.cost == 0 && q < 2
    ensures Judge(Unlearned(own, own, 0, None, Fwd2), q, f) ==
      Unlearned(own, f.root, 10, Some(q), OneOpen(q))
  {
    assert BlockOthers(Fwd2, q) == OneOpen(q);
  }

  /** A bridge that is not root ignores a BPDU for a worse root that is not
      its own. */
  lemma IgnoresWorse(b: Bridge, p: nat, f: Fields)
    requires p < |b.ports| && f.root > b.root && f.bridge != b.own && b.root != b.own
    ensures StepsTo(b, p, f, b, [])
  {
    WorseRootIgnored(b, OwnMac, p, f);
  }

  /** A root bridge with both trunks forwarding is unchanged by a BPDU for
      the same root. */
  lemma RootIgnoresSameRoot(own: int, p: nat, f: Fields)
    requires p < 2 && f.root == own
    ensures StepsTo(Unlearned(own, own, 0, None, Fwd2), p, f, Unlearned(own, own, 0, None, Fwd2), [])
  {
    RootKeepsTrunksForwarding(Unlearned(own, own, 0, None, Fwd2), OwnMac, p, f);
    assert UnblockAll(Fwd2) == Fwd2;
  }

  /** The triangle A (id 10), B (20), C (30) with links A.0-B.0, A.1-C.0 and
      B.1-C.1, all starting as root. When A's first BPDUs reach B and C
      before B's and C's own BPDUs cross on the B-C link, B and C adopt A,
      each blocks its port on the B-C link and relays towards A; the
      crossing BPDUs and the relays change nothing. A ends root everywhere
      and the active links A-B and A-C form a tree, but both ends of B-C
      stay blocked. */
  lemma TriangleRootFirst()
    // A's BPDU reaches B on B.0 and C on C.0
    ensures StepsTo(Unlearned(20, 20, 0, None, Fwd2), 0, Fields(10, 0, 10, 0),
                    Unlearned(20, 10, 10, Some(0), [Forwarding, Blocked]), [0])
    ensures StepsTo(Unlearned(30, 30, 0, None, Fwd2), 0, Fields(10, 0, 10, 1),
                    Unlearned(30, 10, 10, Some(0), [Forwarding, Blocked]), [0])
    // B's and C's first BPDUs cross on the B-C link
    ensures StepsTo(Unlearned(20, 10, 10, Some(0), [Forwarding, Blocked]), 1, Fields(30, 0, 30, 1),
                    Unlearned(20, 10, 10, Some(0), [Forwarding, Blocked]), [])
    ensures StepsTo(Unlearned(30, 10, 10, Some(0), [Forwarding, Blocked]), 1, Fields(20, 0, 20, 1),
                    Unlearned(30, 10, 10, Some(0), [Forwarding, Blocked]), [])
    // the relays of B and C reach A
    ensures StepsTo(Unlearned(10, 10, 0, None, Fwd2), 0, Fields(10, 10, 20, 0),
                    Unlearned(10, 10, 0, None, Fwd2), [])
    ensures StepsTo(Unlearned(10, 10, 0, None, Fwd2), 1, Fields(10, 10, 30, 0),
                    Unlearned(10, 10, 0, None, Fwd2), [])
  {
    AdoptOn(20, Fields(10, 0, 10, 0), 0);
    AdoptOn(30, Fields(10, 0, 10, 1), 0);
    IgnoresWorse(Unlearned(20, 10, 10, Some(0), [Forwarding, Blocked]), 1, Fields(30, 0, 30, 1));
    IgnoresWorse(Unlearned(30, 10, 10, Some(0), [Forwarding, Blocked]), 1, Fields(20, 0, 20, 1));
    RootIgnoresSameRoot(10, 0, Fields(10, 10, 20, 0));
    RootIgnoresSameRoot(10, 1, Fields(10, 10, 30, 0));
  }

  /** The same triangle when B's first BPDU reaches C before A's does: C
      adopts B (blocking C.0), then adopts A through C.0 (unblocking it) and
      relays A's BPDU on both ports; B, having adopted A, ignores that
      relay. Only B's end of the B-C link ends blocked. */
  lemma TriangleNeighbourFirst()
    ensures StepsTo(Unlearned(30, 30, 0, None, Fwd2), 1, Fields(20, 0, 20, 1),
                    Unlearned(30, 20, 10, Some(1), [Blocked, Forwarding]), [1])
    ensures StepsTo(Unlearned(30, 20, 10, Some(1), [Blocked, Forwarding]), 0, Fields(10, 0, 10, 1),
                    Unlearned(30, 10, 10, Some(0), Fwd2), [0, 1])
    ensures StepsTo(Unlearned(20, 20, 0, None, Fwd2), 0, Fields(10, 0, 10, 0),
                    Unlearned(20, 10, 10, Some(0), [Forwarding, Blocked]), [0])
    ensures StepsTo(Unlearned(20, 10, 10, Some(0), [Forwarding, Blocked]), 1, Fields(10, 10, 30, 1),
                    Unlearned(20, 10, 10, Some(0), [Forwarding, Blocked]), [])
  {
    AdoptOn(30, Fields(20, 0, 20, 1), 1);
    BetterRootUnblocks();
    AdoptOn(20, Fields(10, 0, 10, 0), 0);
    NoBetterPath(Unlearned(20, 10, 10, Some(0), [Forwarding, Blocked]), 1, Fields(10, 10, 30, 1));
  }

  /** A BPDU for the current root that neither improves the cost through
      the root port nor comes from a farther neighbour leaves a non-root
      bridge unchanged. */
  lemma NoBetterPath(b: Bridge, p: nat, f: Fields)
    requires p < |b.ports| && f.root == b.root && b.root != b.own
    requires b.rootPort != Some(p) ==> f.cost <= b.cost
    requires b.rootPort == Some(p) ==> f.cost + LinkCost >= b.cost
    ensures StepsTo(b, p, f, b, [])
  {
    SameRoot(b, OwnMac, p, f);
    assert Judge(b, p, f) == b;
  }

  /** C, no longer root, adopts A's better claim on its blocked port C.0,
      which becomes its forwarding root port, and relays on both ports. */
  lemma BetterRootUnblocks()
    ensures StepsTo(Unlearned(30, 20, 10, Some(1), [Blocked, Forwarding]), 0, Fields(10, 0, 10, 1),
                    Unlearned(30, 10, 10, Some(0), Fwd2), [0, 1])
  {
    AdoptThroughBlocked(30, 20, Fields(10, 0, 10, 1));
  }

  /** A bridge that is not root, with port 0 blocked and port 1 forwarding,
      hears of a better root on port 0: port 0 becomes its forwarding root
      port and the relay goes out on both ports. */
  lemma AdoptThroughBlocked(own: int, root: int, f: Fields)
    requires Fits(f) && IsU16(own) && f.root < root < own && f.cost == 0
    ensures StepsTo(Unlearned(own, root, 10, Some(1), [Blocked, Forwarding]), 0, f,
                    Unlearned(own, f.root, 10, Some(0), Fwd2), [0, 1])
  {
    var b := Unlearned(own, root, 10, Some(1), [Blocked, Forwarding]);
    var n := Unlearned(own, f.root, 10, Some(0), Fwd2);
    assert Judge(b, 0, f) == n by { UnblockRootPort(b, f); }
    var relay := Announce(n, OwnMac);
    assert relay.Some? && PortsOf(relay.value) == [0, 1] by { RelayOnBoth(n, OwnMac); }
    AdoptionStep(b, 0, f);
  }

  /** A bridge whose two trunks both forward relays on port 0, then port 1. */
  lemma RelayOnBoth(b: Bridge, mac: seq<Byte>)
    requires b.ports == Fwd2 && IsU16(b.root) && IsU16(b.cost) && IsU16(b.own)
    ensures Announce(b, mac).Some? && PortsOf(Announce(b, mac).value) == [0, 1]
  {
    var sends := Announce(b, mac).value;
    assert b.ports[0] == Forwarding && b.ports[1] == Forwarding;
    CoveringPair(sends);
    PortsOfPair(sends);
  }

  /** A bridge with one forwarding and one blocked trunk relays on the
      forwarding one only. */
  lemma RelayOnOne(b: Bridge, mac: seq<Byte>, q: nat)
    requires q < |b.ports| == 2 && forall i :: 0 <= i < |b.ports| ==> (b.ports[i] == Forwarding <==> i == q)
    requires IsU16(b.root) && IsU16(b.cost) && IsU16(b.own)
    ensures Announce(b, mac).Some? && PortsOf(Announce(b, mac).value) == [q]
  {
    var sends := Announce(b, mac).value;
    FewerThanPorts(sends, q, q + 1);
    assert b.ports[q] == Forwarding;
    var k :| 0 <= k < |sends| && sends[k].port == q;
    var ps := PortsOf(sends);
    assert |ps| == 1 && ps[0] == q;
  }

  /** Sends on strictly increasing ports below 2 that reach both 0 and 1 go
      to port 0, then port 1, and nowhere else. */
  lemma CoveringPair(sends: seq<Send>)
    requires forall k :: 0 <= k < |sends| ==> sends[k].port < 2
    requires forall k, l :: 0 <= k < l < |sends| ==> sends[k].port < sends[l].port
    requires exists k :: 0 <= k < |sends| && sends[k].port == 0
    requires exists k :: 0 <= k < |sends| && sends[k].port == 1
    ensures |sends| == 2 && sends[0].port == 0 && sends[1].port == 1
  {
    var k0 :| 0 <= k0 < |sends| && sends[k0].port == 0;
    var k1 :| 0 <= k1 < |sends| && sends[k1].port == 1;
    FewerThanPorts(sends, 0, 2);
    assert sends[0].port < sends[1].port;
  }

  /** Sends on strictly increasing ports from `lo` up to below `n` number
      at most `n - lo`. */
  lemma {:induction false} FewerThanPorts(sends: seq<Send>, lo: nat, n: nat)
    requires lo <= n
    requires forall k :: 0 <= k < |sends| ==> lo <= sends[k].port < n
    requires forall k, l :: 0 <= k < l < |sends| ==> sends[k].port < sends[l].port
    ensures |sends| <= n - lo
  {
    if |sends| > 0 {
      var last := sends[|sends| - 1].port;
      var init := sends[..|sends| - 1];
      assert forall k :: 0 <= k < |init| ==> lo <= init[k].port < last;
      FewerThanPorts(init, lo, last);
    }
  }

  /** Two sends, on port 0 then port 1, go out of ports `[0, 1]`. */
  lemma PortsOfPair(sends: seq<Send>)
    requires |sends| == 2 && sends[0].port == 0 && sends[1].port == 1
    ensures PortsOf(sends) == [0, 1]
  {
    var ps := PortsOf(sends);
    assert ps[0] == 0 && ps[1] == 1;
  }

  /** The case analysis for that better root: port 0 is unblocked and
      becomes the root port. */
  lemma UnblockRootPort(b: Bridge, f: Fields)
    requires b.ports == [Blocked, Forwarding] && b.rootPort == Some(1) && f.root < b.root < b.own
    ensures Judge(b, 0, f) == b.(root := f.root, cost := f.cost + LinkCost, rootPort := Some(0), ports := Fwd2)
  {
  }

  /** When a better root arrives at a bridge that does not become root, the
      handler steps to the case analysis's state and relays where
      `Announce` does. */
  lemma AdoptionStep(b: Bridge, p: nat, f: Fields)
    requires p < |b.ports| && f.root < b.root <= b.own
    ensures var n := Judge(b, p, f);
      Announce(n, OwnMac).Some? ==> StepsTo(b, p, f, n, PortsOf(Announce(n, OwnMac).value))
  {
  }
}

=== FILE: state.dfy ===
/** The switch's mutable state, held in module-level globals and locals of
    `main` in switch.py, gathered into one immutable record. */
module State {
  import opened Options
  import opened Bytes
  import opened Ports

  /** One `send_to_link(port, length, frame)` call. */
  datatype Send = Send(port: nat, length: int, frame: seq<Byte>)

  datatype Bridge = Bridge(
    own: int,                   // own_bridge_id, the configured priority
    root: int,                  // root_bridge_id
    cost: int,                  // root_path_cost (a Python int: unbounded)
    rootPort: Option<nat>,      // root_port; None is switch.py's -1
    ports: seq<Role>,           // vlan_table
    macs: map<seq<Byte>, nat>)  // MAC_table: source address to interface

  /** The state after one received frame, and what was sent meanwhile. */
  datatype Step = Step(bridge: Bridge, sends: seq<Send>)

  /** Every learned interface indexes the port table. */
  predicate MacsInRange(b: Bridge) {
    forall a :: a in b.macs ==> b.macs[a] < |b.ports|
  }

  /** What holds of every state the switch reaches from `Initial`. */
  predicate Inv(b: Bridge) {
    && b.root <= b.own
    && (b.root == b.own <==> b.rootPort.None?)
    && (b.root == b.own ==> b.cost == 0)
    && (b.rootPort.Some? ==> b.rootPort.value < |b.ports|)
    && MacsInRange(b)
    && AllWellFormed(b.ports)
  }

  /** The state `main` builds before its receive loop: this bridge assumes
      it is the root, at cost 0, with no root port and nothing learned. */
  function Initial(own: int, ports: seq<Role>): (b: Bridge)
    requires AllWellFormed(ports)
    ensures Inv(b) && b.ports == ports && b.own == own
    ensures b.root == b.own && b.macs == map[]
  {
    Bridge(own, own, 0, None, ports, map[])
  }
}

=== FILE: stp.dfy ===
/** The simplified spanning-tree logic: the BPDU handler of the receive loop
    and the port selection of the once-a-second sender. It follows the root
    election of IEEE 802.1D-1998 clause 8 in spirit (lowest id wins, path
    cost grows by a fixed link cost per hop) without its timers. */
module Stp {
  import opened Options
  import opened Bytes
  import opened Ports
  import opened Bpdu
  import opened State

  /** The cost the switch adds for the link a BPDU arrived on. */
  const LinkCost: int := 10

  /** One BPDU carrying `(root, cost, bridge, port)` out of each port of
      `idxs`, in order; `None` when a field does not fit `struct.pack('!H', _)`. */
  function BpduSends(idxs: seq<nat>, root: int, cost: int, bridge: int, mac: seq<Byte>): (r: Option<seq<Send>>)
    ensures r.Some? <==> |idxs| == 0 || (IsU16(root) && IsU16(cost) && IsU16(bridge) && forall k :: 0 <= k < |idxs| ==> IsU16(idxs[k]))
    ensures r.Some? ==> |r.value| == |idxs|
    ensures r.Some? ==> forall k :: 0 <= k < |idxs| ==>
      && r.value[k].port == idxs[k]
      && r.value[k].length == FrameLength
      && BpduFrame(mac, Fields(root, cost, bridge, idxs[k])) == Some(r.value[k].frame)
    decreases |idxs|
  {
    if |idxs| == 0 then Some([])
    else
      match (BpduFrame(mac, Fields(root, cost, bridge, idxs[0])), BpduSends(idxs[1..], root, cost, bridge, mac))
      case (Some(fr), Some(rest)) => Some([Send(idxs[0], FrameLength, fr)] + rest)
      case _ => None
  }

  /** `send_bpdu_packet(index)` for every "T" entry, with the bridge's current
      root, cost and own id: exactly one BPDU per forwarding port. */
  function Announce(b: Bridge, mac: seq<Byte>): (r: Option<seq<Send>>)
    ensures r.Some? ==> forall k :: 0 <= k < |r.value| ==>
      && r.value[k].port < |b.ports|
      && b.ports[r.value[k].port] == Forwarding
      && r.value[k].length == FrameLength
      && BpduFrame(mac, Fields(b.root, b.cost, b.own, r.value[k].port)) == Some(r.value[k].frame)
    ensures r.Some? ==> forall i :: 0 <= i < |b.ports| && b.ports[i] == Forwarding ==>
      exists k :: 0 <= k < |r.value| && r.value[k].port == i
    ensures r.Some? ==> forall k, l :: 0 <= k < l < |r.value| ==> r.value[k].port < r.value[l].port
    ensures IsU16(b.root) && IsU16(b.cost) && IsU16(b.own) && |b.ports| <= 0x1_0000 ==> r.Some?
    ensures (forall i :: 0 <= i < |b.ports| ==> b.ports[i] != Forwarding) ==> r == Some([])
  {
    var idxs := ForwardingPorts(b.ports, 0);
    var r := BpduSends(idxs, b.root, b.cost, b.own, mac);
    if r.Some? then
      SendsCoverPorts(b.ports, idxs, r.value);
      r
    else r
  }

  /** A send list that follows `ForwardingPorts` port for port reaches every
      forwarding port. */
  lemma SendsCoverPorts(ports: seq<Role>, idxs: seq<nat>, sends: seq<Send>)
    requires idxs == ForwardingPorts(ports, 0)
    requires |sends| == |idxs| && forall k :: 0 <= k < |idxs| ==> sends[k].port == idxs[k]
    ensures forall i :: 0 <= i < |ports| && ports[i] == Forwarding ==>
      exists k :: 0 <= k < |sends| && sends[k].port == i
  {
    forall i | 0 <= i < |ports| && ports[i] == Forwarding
      ensures exists k :: 0 <= k < |sends| && sends[k].port == i
    {
      var k :| 0 <= k < |idxs| && idxs[k] == i;
      assert sends[k].port == i;
    }
  }

  /** The body of `send_bdpu_every_sec` for one tick: only a bridge that
      believes itself the root sends, and then on every forwarding port. */
  function PeriodicSends(b: Bridge, mac: seq<Byte>): (r: Option<seq<Send>>)
    ensures b.own != b.root ==> r == Some([])
    ensures r.Some? ==> forall k :: 0 <= k < |r.value| ==>
      && r.value[k].port < |b.ports|
      && b.ports[r.value[k].port] == Forwarding
      && BpduFrame(mac, Fields(b.root, b.cost, b.own, r.value[k].port)) == Some(r.value[k].frame)
    ensures r.Some? && b.own == b.root ==> forall i :: 0 <= i < |b.ports| && b.ports[i] == Forwarding ==>
      exists k :: 0 <= k < |r.value| && r.value[k].port == i
    ensures Inv(b) && IsU16(b.own) && |b.ports| <= 0x1_0000 ==> r.Some?
  {
    if b.own == b.root then Announce(b, mac) else Some([])
  }

  /** Every forwarding trunk except `p` becomes blocked. */
  function BlockOthers(ports: seq<Role>, p: nat): (r: seq<Role>)
    ensures |r| == |ports|
    ensures forall i :: 0 <= i < |ports| ==>
      r[i] == (if i != p && ports[i] == Forwarding then Blocked else ports[i])
    ensures forall i :: 0 <= i < |r| ==> r[i].IsTrunk() == ports[i].IsTrunk()
  {
    seq(|ports|, i requires 0 <= i < |ports| => if i != p && ports[i] == Forwarding then Blocked else ports[i])
  }

  /** Every blocked trunk becomes forwarding. */
  function UnblockAll(ports: seq<Role>): (r: seq<Role>)
    ensures |r| == |ports|
    ensures forall i :: 0 <= i < |ports| ==> r[i] == (if ports[i] == Blocked then Forwarding else ports[i])
    ensures forall i :: 0 <= i < |r| ==> r[i] != Blocked
    ensures forall i :: 0 <= i < |r| ==> r[i].IsTrunk() == ports[i].IsTrunk()
  {
    seq(|ports|, i requires 0 <= i < |ports| => if ports[i] == Blocked then Forwarding else ports[i])
  }

  /** The ordered `if/elif/elif` of the BPDU handler: a better root, the same
      root, or this bridge's own BPDU come back. */
  function Judge(b: Bridge, p: nat, f: Fields): (r: Bridge)
    requires p < |b.ports|
    ensures r.own == b.own && r.macs == b.macs && |r.ports| == |b.ports|
    ensures r.root == (if f.root < b.root then f.root else b.root)
  {
    if f.root < b.root then
      var blocked := if b.root == b.own then BlockOthers(b.ports, p) else b.ports;
      var ports := if blocked[p] == Blocked then blocked[p := Forwarding] else blocked;
      b.(root := f.root, cost := f.cost + LinkCost, rootPort := Some(p), ports := ports)
    else if f.root == b.root then
      if b.rootPort == Some(p) && f.cost + LinkCost < b.cost then
        b.(cost := f.cost + LinkCost)
      else if b.rootPort != Some(p) && f.cost > b.cost && b.ports[p] == Blocked then
        b.(ports := b.ports[p := Forwarding])
      else b
    else if f.bridge == b.own && b.ports[p] == Forwarding then
      b.(ports := b.ports[p := Blocked])
    else b
  }

  /** Which ports the case analysis changes: apart from the receiving port,
      only a bridge that was root and adopts a better root changes any,
      blocking its forwarding trunks; the receiving port opens only for a
      root at least as good as the current one, and closes only for the
      bridge's own BPDU come back with a worse root. */
  lemma JudgePorts(b: Bridge, p: nat, f: Fields)
    requires p < |b.ports|
    ensures var r := Judge(b, p, f);
      && (forall i :: 0 <= i < |b.ports| && i != p ==>
            r.ports[i] == (if f.root < b.root && b.root == b.own && b.ports[i] == Forwarding then Blocked else b.ports[i]))
      && (r.ports[p] != b.ports[p] ==>
            || (b.ports[p] == Blocked && r.ports[p] == Forwarding && f.root <= b.root)
            || (b.ports[p] == Forwarding && r.ports[p] == Blocked && f.root > b.root && f.bridge == b.own))
  {
  }

  /** The case analysis keeps the own id, the learned addresses, each
      port's kind and the root unless a better one arrives; a better root
      arrives through `p` at one link's cost more than advertised. */
  lemma JudgeKeeps(b: Bridge, p: nat, f: Fields)
    requires p < |b.ports|
    ensures var j := Judge(b, p, f);
      && j.own == b.own && j.macs == b.macs && |j.ports| == |b.ports|
      && (f.root < b.root ==> j.root == f.root && j.cost == f.cost + LinkCost && j.rootPort == Some(p))
      && (f.root >= b.root ==> j.root == b.root && j.rootPort == b.rootPort && j.cost <= b.cost)
      && forall i :: 0 <= i < |b.ports| ==>
           j.ports[i] == b.ports[i] || (b.ports[i].IsTrunk() && j.ports[i].IsTrunk())
  {
    var j := Judge(b, p, f);
    if f.root < b.root {
      var blocked := if b.root == b.own then BlockOthers(b.ports, p) else b.ports;
      assert forall i :: 0 <= i < |b.ports| ==>
        blocked[i] == b.ports[i] || (b.ports[i].IsTrunk() && blocked[i].IsTrunk());
    }
  }

  /** Unblocking every trunk of a table that kept each port's kind of
      `before` still keeps each port's kind, and leaves nothing blocked. */
  lemma UnblockKeepsKinds(before: seq<Role>, mid: seq<Role>)
    requires |mid| == |before|
    requires forall i :: 0 <= i < |before| ==>
      mid[i] == before[i] || (before[i].IsTrunk() && mid[i].IsTrunk())
    ensures var r := UnblockAll(mid);
      && (forall i :: 0 <= i < |before| ==>
            r[i] == before[i] || (before[i].IsTrunk() && r[i].IsTrunk()))
      && (forall i :: 0 <= i < |r| ==> r[i] != Blocked)
  {
  }

  /** The whole BPDU handler for a BPDU with fields `f` received on port `p`:
      the case analysis, the relay of a newly adopted root on every
      forwarding port, then the root re-assertion pass. `None` when a relay
      BPDU cannot be packed (switch.py raises `struct.error`). */
  function BpduStep(b: Bridge, mac: seq<Byte>, p: nat, f: Fields): (r: Option<Step>)
    requires p < |b.ports|
    ensures r.None? ==> f.root < b.root
    ensures r.Some? ==> var n := r.value.bridge;
      && n.own == b.own && n.macs == b.macs && |n.ports| == |b.ports|
      && n.root <= b.root
      && (n.root < b.root <==> f.root < b.root)
      && (n.root == b.root ==> n.rootPort == b.rootPort && n.cost <= b.cost)
    ensures r.Some? ==> forall i :: 0 <= i < |b.ports| ==>
      r.value.bridge.ports[i] == b.ports[i] || (b.ports[i].IsTrunk() && r.value.bridge.ports[i].IsTrunk())
    ensures r.Some? && r.value.bridge.own == r.value.bridge.root ==>
      forall i :: 0 <= i < |r.value.bridge.ports| ==> r.value.bridge.ports[i] != Blocked
    ensures r.Some? && f.root >= b.root ==> r.value.sends == []
  {
    JudgeKeeps(b, p, f);
    var j := Judge(b, p, f);
    UnblockKeepsKinds(b.ports, j.ports);
    var relay := if f.root < b.root then Announce(j, mac) else Some([]);
    match relay
    case None => None
    case Some(sends) =>
      var ports := if j.own == j.root then UnblockAll(j.ports) else j.ports;
      Some(Step(j.(ports := ports), sends))
  }

  /** Case 1, a better root: it is adopted with one more link's cost through
      the receiving port; a bridge that was root blocks its other forwarding
      trunks; a trunk receiving port ends forwarding; and the relay goes out
      on exactly the ports forwarding after the update, advertising the new
      root and cost with this bridge's id. */
  lemma BetterRoot(b: Bridge, mac: seq<Byte>, p: nat, f: Fields)
    requires p < |b.ports| && f.root < b.root <= b.own
    ensures var r := BpduStep(b, mac, p, f);
      r.Some? ==> var n := r.value.bridge;
        && n.root == f.root && n.cost == f.cost + LinkCost && n.rootPort == Some(p)
        && (b.ports[p].IsTrunk() ==> n.ports[p] == Forwarding)
        && (!b.ports[p].IsTrunk() ==> n.ports[p] == b.ports[p])
        && (forall i :: 0 <= i < |b.ports| && i != p ==>
              n.ports[i] == (if b.root == b.own && b.ports[i] == Forwarding then Blocked else b.ports[i]))
        && (forall k :: 0 <= k < |r.value.sends| ==>
              var q := r.value.sends[k].port;
              q < |n.ports| && n.ports[q] == Forwarding
              && BpduFrame(mac, Fields(f.root, f.cost + LinkCost, b.own, q)) == Some(r.value.sends[k].frame))
        && (forall i :: 0 <= i < |n.ports| && n.ports[i] == Forwarding ==>
              exists k :: 0 <= k < |r.value.sends| && r.value.sends[k].port == i)
  {
    var r := BpduStep(b, mac, p, f);
    if r.Some? {
      var j := Judge(b, p, f);
      assert j.root != j.own;
      assert r.value.bridge == j;
      assert r.value.sends == Announce(j, mac).value;
      AdoptedPorts(b, p, f);
    }
  }

  /** The table after adopting a better root through `p`. */
  lemma AdoptedPorts(b: Bridge, p: nat, f: Fields)
    requires p < |b.ports| && f.root < b.root
    ensures var n := Judge(b, p, f);
      && n.root == f.root && n.cost == f.cost + LinkCost && n.rootPort == Some(p)
      && (b.ports[p].IsTrunk() ==> n.ports[p] == Forwarding)
      && (!b.ports[p].IsTrunk() ==> n.ports[p] == b.ports[p])
      && (forall i :: 0 <= i < |b.ports| && i != p ==>
            n.ports[i] == (if b.root == b.own && b.ports[i] == Forwarding then Blocked else b.ports[i]))
  {
    var blocked := if b.root == b.own then BlockOthers(b.ports, p) else b.ports;
    assert forall i :: 0 <= i < |b.ports| && i != p ==> Judge(b, p, f).ports[i] == blocked[i];
  }

  /** The only way the handler fails: a better root whose advertised cost
      plus the link cost no longer fits 16 bits, relayed on some port. */
  lemma BetterRootFails(b: Bridge, mac: seq<Byte>, p: nat, f: Fields)
    requires p < |b.ports| && f.root < b.root <= b.own
    requires Fits(f) && IsU16(b.own) && |b.ports| <= 0x1_0000
    ensures BpduStep(b, mac, p, f).None? <==>
      && !IsU16(f.cost + LinkCost)
      && (b.ports[p].IsTrunk() || (b.root != b.own && exists i :: 0 <= i < |b.ports| && i != p && b.ports[i] == Forwarding))
  {
    var j := Judge(b, p, f);
    assert BpduStep(b, mac, p, f).None? <==> Announce(j, mac).None?;
    AnnounceFails(j, mac);
    AdoptedForwarding(b, p, f);
  }

  /** With root, own id and port indices in range, announcing fails exactly
      when the cost does not fit and some port is forwarding. */
  lemma AnnounceFails(b: Bridge, mac: seq<Byte>)
    requires IsU16(b.root) && IsU16(b.own) && |b.ports| <= 0x1_0000
    ensures Announce(b, mac).None? <==>
      !IsU16(b.cost) && exists i :: 0 <= i < |b.ports| && b.ports[i] == Forwarding
  {
    var idxs := ForwardingPorts(b.ports, 0);
    assert forall k :: 0 <= k < |idxs| ==> IsU16(idxs[k]);
    if |idxs| > 0 {
      assert b.ports[idxs[0]] == Forwarding;
    }
    if exists i :: 0 <= i < |b.ports| && b.ports[i] == Forwarding {
      var i :| 0 <= i < |b.ports| && b.ports[i] == Forwarding;
      assert i in idxs;
    }
  }

  /** After adopting a better root, some port is forwarding exactly when the
      receiving port is a trunk or the bridge was not root and had another
      forwarding port. */
  lemma AdoptedForwarding(b: Bridge, p: nat, f: Fields)
    requires p < |b.ports| && f.root < b.root
    ensures var j := Judge(b, p, f);
      (exists i :: 0 <= i < |j.ports| && j.ports[i] == Forwarding) <==>
      (b.ports[p].IsTrunk() || (b.root != b.own && exists i :: 0 <= i < |b.ports| && i != p && b.ports[i] == Forwarding))
  {
    var j := Judge(b, p, f);
    if b.ports[p].IsTrunk() {
      assert j.ports[p] == Forwarding;
    }
    if b.root != b.own && exists i :: 0 <= i < |b.ports| && i != p && b.ports[i] == Forwarding {
      var i :| 0 <= i < |b.ports| && i != p && b.ports[i] == Forwarding;
      assert j.ports[i] == Forwarding;
    }
    if exists i :: 0 <= i < |j.ports| && j.ports[i] == Forwarding {
      var i :| 0 <= i < |j.ports| && j.ports[i] == Forwarding;
      if i != p {
        assert b.root != b.own && b.ports[i] == Forwarding;
      } else {
        assert b.ports[p].IsTrunk();
      }
    }
  }

  /** Case 2, the same root: nothing is sent and the root is kept; the cost
      only improves, and only through the root port; a port other than the
      root port may only go from blocked to forwarding, and only when the
      neighbour's cost exceeds this bridge's. */
  lemma SameRoot(b: Bridge, mac: seq<Byte>, p: nat, f: Fields)
    requires p < |b.ports| && f.root == b.root && b.root != b.own
    ensures var r := BpduStep(b, mac, p, f);
      && r.Some? && r.value.sends == []
      && var n := r.value.bridge;
      && n.root == b.root && n.rootPort == b.rootPort
      && (n.cost != b.cost ==> b.rootPort == Some(p) && f.cost + LinkCost < b.cost && n.cost == f.cost + LinkCost)
      && (b.rootPort == Some(p) && f.cost + LinkCost < b.cost ==> n.cost == f.cost + LinkCost)
      && (forall i :: 0 <= i < |b.ports| && i != p ==> n.ports[i] == b.ports[i])
      && (n.ports[p] != b.ports[p] ==>
            b.rootPort != Some(p) && f.cost > b.cost && b.ports[p] == Blocked && n.ports[p] == Forwarding)
      && (b.rootPort != Some(p) && f.cost > b.cost && b.ports[p] == Blocked ==> n.ports[p] == Forwarding)
  {
  }

  /** Case 3, this bridge's own BPDU come back: reached only when the
      advertised root is worse than the current one; a forwarding receiving
      port becomes blocked and nothing else changes. */
  lemma LoopBack(b: Bridge, mac: seq<Byte>, p: nat, f: Fields)
    requires p < |b.ports| && f.root > b.root && f.bridge == b.own && b.root != b.own
    ensures BpduStep(b, mac, p, f) ==
      Some(Step(b.(ports := if b.ports[p] == Forwarding then b.ports[p := Blocked] else b.ports), []))
  {
  }

  /** Any other BPDU advertising a worse root changes nothing at a bridge
      that is not the root. */
  lemma WorseRootIgnored(b: Bridge, mac: seq<Byte>, p: nat, f: Fields)
    requires p < |b.ports| && f.root > b.root && f.bridge != b.own && b.root != b.own
    ensures BpduStep(b, mac, p, f) == Some(Step(b, []))
  {
  }

  /** At a bridge that is root and stays root, the handler leaves every trunk
      forwarding and the rest of the table as it was, whatever the BPDU. */
  lemma RootKeepsTrunksForwarding(b: Bridge, mac: seq<Byte>, p: nat, f: Fields)
    requires p < |b.ports| && b.root == b.own && f.root >= b.root
    ensures BpduStep(b, mac, p, f).Some?
    ensures BpduStep(b, mac, p, f).value.bridge.ports == UnblockAll(b.ports)
  {
  }
}

=== FILE: switch.dfy ===
/** One iteration of the receive loop, the timer's tick, and runs of both
    interleaved one event at a time. */
module Switch {
  import opened Options
  import opened Bytes
  import opened Ports
  import opened Frame
  import opened Bpdu
  import opened State
  import opened Stp
  import opened Forward

  /** Each port keeps its kind: access entries never change, trunk entries
      stay trunk entries. */
  predicate SameKinds(before: seq<Role>, after: seq<Role>) {
    && |after| == |before|
    && forall i :: 0 <= i < |before| ==>
         after[i] == before[i] || (before[i].IsTrunk() && after[i].IsTrunk())
  }

  /** Everything learned stays learned, on the same port. */
  predicate Remembers(before: map<seq<Byte>, nat>, after: map<seq<Byte>, nat>) {
    forall a :: a in before ==> a in after && after[a] == before[a]
  }

  /** Handle frame `data` received on port `p`: parse it, then either the
      BPDU handler (destination is the group address) or learning and
      forwarding. `None` where switch.py raises: a frame too short to
      parse, a BPDU whose payload is not 8 octets, an untagged frame on a
      port without a numeric entry, or a relay BPDU that cannot be packed.
      The state such a raise leaves is `LeftAtRaise`. */
  function Receive(b: Bridge, mac: seq<Byte>, p: nat, data: seq<Byte>): (r: Option<Step>)
    requires p < |b.ports| && MacsInRange(b)
    ensures Parse(data).None? ==> r.None?
    ensures r.Some? ==> var n := r.value.bridge;
      && n.own == b.own && n.root <= b.root
      && SameKinds(b.ports, n.ports)
      && Remembers(b.macs, n.macs)
      && MacsInRange(n)
    ensures r.Some? && Parse(data).value.dest == GroupAddress ==> r.value.bridge.macs == b.macs
    ensures r.Some? && Parse(data).value.dest != GroupAddress ==>
      r.value.bridge == b.(macs := r.value.bridge.macs)
  {
    match Parse(data)
    case None => None
    case Some(h) =>
      if h.dest == GroupAddress then
        match Unpack(data[AddrLen..])
        case None => None
        case Some(f) => BpduStep(b, mac, p, f)
      else ForwardStep(b, p, h, data)
  }

  /** Every step keeps the invariant: the root never exceeds the own id, the
      bridge is root exactly when it has no root port, a root bridge has
      cost 0, and learned ports and the root port index the table. */
  lemma ReceivePreservesInv(b: Bridge, mac: seq<Byte>, p: nat, data: seq<Byte>)
    requires Inv(b) && p < |b.ports|
    ensures Receive(b, mac, p, data).Some? ==> Inv(Receive(b, mac, p, data).value.bridge)
  {
    var r := Receive(b, mac, p, data);
    if r.Some? {
      var h := Parse(data).value;
      if h.dest == GroupAddress {
        BpduPreservesInv(b, mac, p, Unpack(data[AddrLen..]).value);
      } else {
        assert r == ForwardStep(b, p, h, data);
        KindsKeepWellFormed(b.ports, r.value.bridge.ports);
      }
    }
  }

  /** The BPDU handler keeps the invariant. */
  lemma BpduPreservesInv(b: Bridge, mac: seq<Byte>, p: nat, f: Fields)
    requires Inv(b) && p < |b.ports|
    ensures BpduStep(b, mac, p, f).Some? ==> Inv(BpduStep(b, mac, p, f).value.bridge)
  {
    var r := BpduStep(b, mac, p, f);
    if r.Some? {
      var n := r.value.bridge;
      var j := Judge(b, p, f);
      assert n.root == j.root && n.cost == j.cost && n.rootPort == j.rootPort;
      if f.root < b.root {
        assert n.root < n.own && n.rootPort == Some(p);
      } else {
        assert n.root == b.root && n.rootPort == b.rootPort;
        assert b.root == b.own ==> n.cost == b.cost;
      }
      KindsKeepWellFormed(b.ports, n.ports);
    }
  }

  /** The fields of `data` when it is a BPDU whose payload unpacks. */
  function BpduOf(data: seq<Byte>): (r: Option<Fields>)
    ensures r.Some? <==>
      Parse(data).Some? && Parse(data).value.dest == GroupAddress && Unpack(data[AddrLen..]).Some?
    ensures r.Some? ==> r == Unpack(data[AddrLen..])
  {
    match Parse(data)
    case None => None
    case Some(h) => if h.dest == GroupAddress then Unpack(data[AddrLen..]) else None
  }

  /** The globals as they stand when the iteration for `data` on port `p`
      raises. Only case 1 of the BPDU handler writes them before it can
      raise: the adopted root, cost, root port and table are stored
      (switch.py:137-146) before the relay is packed (switch.py:147-149).
      Every other raise comes before any write, and leaves `b` as it was. */
  function LeftAtRaise(b: Bridge, p: nat, data: seq<Byte>): (n: Bridge)
    requires Inv(b) && p < |b.ports|
    ensures Inv(n) && n.own == b.own && n.root <= b.root && n.macs == b.macs
    ensures SameKinds(b.ports, n.ports)
    ensures n != b <==> BpduOf(data).Some? && BpduOf(data).value.root < b.root
    ensures n != b ==> n.root == BpduOf(data).value.root && n.rootPort == Some(p)
  {
    match BpduOf(data)
    case Some(f) =>
      if f.root < b.root then
        JudgeKeeps(b, p, f);
        KindsKeepWellFormed(b.ports, Judge(b, p, f).ports);
        Judge(b, p, f)
      else b
    case None => b
  }

  /** Keeping each port's kind keeps the table well formed. */
  lemma KindsKeepWellFormed(before: seq<Role>, after: seq<Role>)
    requires AllWellFormed(before) && SameKinds(before, after)
    ensures AllWellFormed(after)
  {
    forall i | 0 <= i < |after|
      ensures WellFormed(after[i])
    {
      assert after[i] == before[i] || after[i].IsTrunk();
    }
  }

  /** A bridge that has given up root status never regains it: the root id
      only decreases, so it cannot climb back to the own id. */
  lemma RootNeverReturns(b: Bridge, mac: seq<Byte>, p: nat, data: seq<Byte>)
    requires Inv(b) && p < |b.ports| && b.root != b.own
    ensures Receive(b, mac, p, data).Some? ==>
      var n := Receive(b, mac, p, data).value.bridge;
      n.root < n.own && n.rootPort.Some?
  {
    ReceivePreservesInv(b, mac, p, data);
  }

  /** What the switch observes: a frame on a port, or the timer's tick. */
  datatype Event = Frame(port: nat, data: seq<Byte>) | Tick

  predicate PortsInRange(events: seq<Event>, n: nat) {
    forall k :: 0 <= k < |events| && events[k].Frame? ==> events[k].port < n
  }

  /** Which threads of switch.py still run: the receive loop of `main`, and
      the timer thread running `send_bdpu_every_sec`. A raise ends only the
      thread that raised; the other one carries on. */
  datatype Threads = Threads(receiving: bool, ticking: bool)

  /** The state after some events, everything sent, and the live threads. */
  datatype Outcome = Outcome(bridge: Bridge, sends: seq<Send>, threads: Threads)

  /** One event: a frame for the receive loop, or one round of the timer
      thread, which reads the state but does not change it. An event for a
      thread that has ended does nothing; an event that makes its thread
      raise ends that thread and sends nothing, and the state is what the
      thread had written before the raise (`LeftAtRaise`). */
  function Handle(b: Bridge, mac: seq<Byte>, e: Event, t: Threads): (r: Outcome)
    requires Inv(b) && (e.Frame? ==> e.port < |b.ports|)
    ensures var n := r.bridge;
      && Inv(n)
      && n.own == b.own && n.root <= b.root
      && SameKinds(b.ports, n.ports)
      && Remembers(b.macs, n.macs)
    ensures r.threads.receiving == (t.receiving && (e.Frame? ==> Receive(b, mac, e.port, e.data).Some?))
    ensures r.threads.ticking == (t.ticking && (e.Tick? ==> PeriodicSends(b, mac).Some?))
    ensures e.Tick? ==> r.bridge == b
    ensures e.Tick? && !r.threads.ticking ==> r.sends == []
    ensures e.Frame? && !r.threads.receiving ==>
      r.sends == [] && r.bridge == (if t.receiving then LeftAtRaise(b, e.port, e.data) else b)
    ensures e.Frame? && r.threads.receiving ==>
      Step(r.bridge, r.sends) == Receive(b, mac, e.port, e.data).value
    ensures e.Tick? && r.threads.ticking ==> r.sends == PeriodicSends(b, mac).value
  {
    match e
    case Tick =>
      if !t.ticking then Outcome(b, [], t)
      else
        (match PeriodicSends(b, mac)
         case None => Outcome(b, [], t.(ticking := false))
         case Some(s) => Outcome(b, s, t))
    case Frame(p, data) =>
      if !t.receiving then Outcome(b, [], t)
      else
        ReceivePreservesInv(b, mac, p, data);
        match Receive(b, mac, p, data)
        case None => Outcome(LeftAtRaise(b, p, data), [], t.(receiving := false))
        case Some(step) => Outcome(step.bridge, step.sends, t)
  }

  /** The receive loop and the timer thread, with each event handled as a
      whole before the next. Threads only ever end, and once both have
      ended nothing changes and nothing is sent. */
  function Run(b: Bridge, mac: seq<Byte>, events: seq<Event>, t: Threads): (r: Outcome)
    requires Inv(b) && PortsInRange(events, |b.ports|)
    ensures var n := r.bridge;
      && Inv(n)
      && n.own == b.own && n.root <= b.root
      && SameKinds(b.ports, n.ports)
      && Remembers(b.macs, n.macs)
    ensures r.threads.receiving ==> t.receiving
    ensures r.threads.ticking ==> t.ticking
    ensures !t.receiving && !t.ticking ==> r == Outcome(b, [], t)
    decreases |events|
  {
    if |events| == 0 then Outcome(b, [], t)
    else
      var step := Handle(b, mac, events[0], t);
      assert PortsInRange(events[1..], |step.bridge.ports|);
      var rest := Run(step.bridge, mac, events[1..], step.threads);
      Outcome(rest.bridge, step.sends + rest.sends, rest.threads)
  }

  /** A BPDU with a better root whose relay cannot be packed: switch.py has
      already stored the adopted root when `struct.pack` raises, so the
      receive loop ends with the bridge no longer root, and the timer
      thread, still running, sends nothing from then on. */
  lemma RelayRaiseSilencesTimer(b: Bridge, mac: seq<Byte>, p: nat, data: seq<Byte>, t: Threads)
    requires Inv(b) && p < |b.ports| && t.receiving
    requires BpduOf(data).Some? && BpduOf(data).value.root < b.root
    requires Receive(b, mac, p, data).None?
    ensures var r := Handle(b, mac, Frame(p, data), t);
      && r.threads == t.(receiving := false)
      && r.bridge == Judge(b, p, BpduOf(data).value)
      && r.bridge.root < r.bridge.own
      && Handle(r.bridge, mac, Tick, r.threads).sends == []
  {
  }

  /** For a BPDU with a better root, the iteration raises exactly when the
      relay from the adopted state cannot be packed: the raise comes after
      the writes that `LeftAtRaise` keeps. */
  lemma RaiseAfterAdoption(b: Bridge, mac: seq<Byte>, p: nat, data: seq<Byte>)
    requires p < |b.ports| && MacsInRange(b)
    requires BpduOf(data).Some? && BpduOf(data).value.root < b.root
    ensures Receive(b, mac, p, data).None? <==> Announce(Judge(b, p, BpduOf(data).value), mac).None?
  {
  }
}
